=== FILE: README.md ===
# imgclas decision rules in Dafny

This project models the pure decision rules of `imgclas`, an image classifier served over a REST API. These rules sit inside the Keras, HTTP and file-system glue of `imgclas/api.py` and `imgclas/model_utils.py`:

- choosing the model snapshot and checkpoint to load, and falling back when the class-info file is missing or mismatched (`load_inference_model`);
- the request validators for URLs and uploaded files (`catch_url_error`, `catch_localfile_error`);
- the answer of the prediction endpoints (`format_prediction`, `image_link`, `wikipedia_link`, `predict_url`, `predict_data`);
- merging the user's overrides into the configuration schema in `train`;
- reading the PKG-INFO lines in `get_metadata`;
- the callback list of `get_callbacks` and the step decay of `LR_scheduler.schedule`;
- the rows and column layout of the human-readable `conf.txt` written by `save_conf`.

Every exception the program raises inside an endpoint reaches the client as a `BadRequest`, because of the `catch_error` decorator. The model therefore returns a `Result` (or an `Outcome` for checks) carrying an `Errors.Error`, one constructor per way of failing. Directory listings, file contents, HTTP header replies, decoded JSON values and the network's ranked labels are parameters. `json.loads`, `quote_plus`, `str` and `requests.head` are function parameters.

Modules:
- `Wrappers`: `Option`, `Result`, `Outcome`.
- `Errors`: the error kinds.
- `Json`: decoded JSON values.
- `PyStr`: Python's code-point string order and `startswith`, `endswith`, `split`, `replace` and `ljust`.
- `PySeq`: `sorted` as an insertion sort, filtering, Python indexing with negative indices, `zip`, and an in-order map that stops at the first failure.
- `Dicts`: dicts as association lists, plus the sorted two-level walk shared by `train` and `save_conf`.
- `Loading`, `Validators`, `Prediction`, `Training`, `Metadata`, `Callbacks` and `ConfText`: the rules themselves.

## Model

| member | source | states |
|---|---|---|
| Loading.SelectSnapshot | imgclas/api.py:72-81 | No snapshot directories is a `NoModels` error. If `api` is listed it is always chosen. Otherwise the choice is a listed name that is at least every listed name in code-point order. |
| Loading.SnapshotIsTheMaximum | imgclas/api.py:78-81 | Without `api`, any listed name that is at least every other listed name is the one chosen, so the choice is the unique maximum. |
| Loading.Candidates | imgclas/api.py:95 | The comprehension keeps exactly the listed names that end with the filter suffix. |
| Loading.LatestCandidate | imgclas/api.py:95 | `sorted(candidates)[-1]` succeeds iff some listed name ends with the suffix. It then returns such a name that is at least every other one, and otherwise fails with `NoMatchingCheckpoint`. |
| Loading.SelectCheckpointWith | imgclas/api.py:86-95 | Empty listing: `NoCheckpoints`. `final_model.h5` wins whenever listed. Otherwise the call succeeds iff some name ends with the filter suffix, and then returns the greatest such name. |
| Loading.SelectCheckpoint | imgclas/api.py:86-95 | The same rule, with the fallback filter being the literal suffix `*.h5` as the program writes it. |
| Loading.OrdinaryCheckpointsAreNeverCandidates | imgclas/api.py:95 | A non-empty listing without `final_model.h5` whose names contain no `*` always makes the selection fail with `NoMatchingCheckpoint`. |
| Loading.EpochCheckpointsFailAsWritten | imgclas/api.py:95 | `epoch-01.h5`, `epoch-09.h5` with no final model makes loading fail. |
| Loading.SelectCheckpointIntended | imgclas/api.py:95 | The rule with the suffix `.h5`: the call succeeds iff some `.h5` file is listed, and then returns the greatest such name. |
| Loading.EpochCheckpointsSelectLatestIntended | imgclas/api.py:95 | With the `.h5` filter, the listing `epoch-01.h5`, `epoch-09.h5` selects `epoch-09.h5`. |
| Loading.ResolveClassInfo | imgclas/api.py:102-113 | The class info always has one entry per class name. It is the info file when that file exists with the right length, and all empty strings otherwise. |
| Loading.ClassInfoAllOrNothing | imgclas/api.py:104-113 | The info is used whole or not at all: never a mix of file lines and blanks. |
| Loading.LoadInferenceModel | imgclas/api.py:72-118 | Loading fails in the program's order. First comes the snapshot selection's error (`NoModels`). Then `MissingSnapshotFiles` when the snapshot's `ckpts/` cannot be listed. Then the checkpoint selection's error (`NoCheckpoints`, `NoMatchingCheckpoint`). Only after a checkpoint is chosen does it give `MissingSnapshotFiles` for unreadable class names or configuration. The load succeeds iff all these steps succeed. On success the state holds that snapshot, that checkpoint, the snapshot's class names and configuration, and the class info resolved from its info file (one entry per class). |
| Loading.EmptyCheckpointsReportedFirst | imgclas/api.py:86-90 | An empty `ckpts/` folder is reported as `NoCheckpoints` whatever the snapshot's other files are. |
| Loading.EnsureLoaded | imgclas/api.py:181-182 | A state already loaded is returned as is, without reading the disk. Otherwise the model is loaded from the models directory. |
| Loading.EnsureLoadedIsIdempotent | imgclas/api.py:181-182 | Once the state is loaded it is reused whatever the disk holds later. |
| Validators.CheckUrl | imgclas/api.py:143-156 | One URL passes iff its HEAD reply has a content type whose part before the first `/` is `image`. A failed connection, a missing header and a non-image type each give their own error. |
| Validators.ValidateUrls | imgclas/api.py:137-156 | An empty list is `EmptyQuery`. A non-empty list passes iff every URL passes. A failure is the error of the first failing URL, one of the three URL errors. |
| Validators.OneBadUrlRejectsBatch | imgclas/api.py:143-156 | A single URL with a non-image content type, at any position, rejects the batch. |
| Validators.ImageSubtypesPass | imgclas/api.py:153 | Every `image/<subtype>` content type passes. |
| Validators.BareImagePasses | imgclas/api.py:153 | The bare content type `image` passes too. |
| Validators.OtherPrimaryTypesFail | imgclas/api.py:153-156 | Any other primary type fails with `NotAnImage`, near misses such as `imagex/png` included. |
| Validators.CheckInOrder | imgclas/api.py:143-156 | The loop passes iff every item passes. Otherwise it reports the first failing item's error. |
| Validators.Extension | imgclas/api.py:167 | The extension contains no `.` and no `/`. It ends the file name. It is either the whole base name or is preceded by a `.` inside the base name. |
| Validators.CheckFile | imgclas/api.py:166-171 | A file passes iff its extension is on the allow-list; otherwise `UnsupportedExtension`. |
| Validators.ValidateFiles | imgclas/api.py:159-171 | An empty list is `EmptyQuery`. A non-empty list passes iff every file's extension is allowed, and otherwise fails with `UnsupportedExtension`. |
| Validators.ValidateDottedName | imgclas/api.py:166-171 | A single `stem.ext` file passes exactly when `ext` is on the allow-list, whatever the stem. |
| Validators.ExtensionIsCaseSensitive | imgclas/api.py:169 | `x.Jpg` is rejected. |
| Validators.LastDotDecides | imgclas/api.py:167 | Only the text after the last dot counts, so `x.b.jpeg` is accepted. |
| Validators.DotlessNameIsItsOwnExtension | imgclas/api.py:167-169 | A base name without a dot is judged whole: `photo` is rejected and a file named `png` is accepted. |
| Validators.OnlyBaseNameCounts | imgclas/api.py:167 | A dot in a directory name is not an extension: `dir/name` is judged by `name` alone. |
| Prediction.WikipediaLink | imgclas/api.py:275-281 | The link is the Wikipedia base followed by the name with each space turned into `_`, character by character. |
| Prediction.WikipediaTitleHasNoSpace | imgclas/api.py:280 | The title part of the link never contains a space. |
| Prediction.ImageLink | imgclas/api.py:265-272 | The link is exactly the search base, the `tbm=isch&q=` parameters and the quoted name: it starts with the first two, ends with the last, and has no other character. |
| Prediction.Entry | imgclas/api.py:249-260 | One entry succeeds iff both the class name and the class info can be indexed by the label. It then carries the label, name, probability, both links and metadata; otherwise `LabelOutOfRange`. |
| Prediction.Entries | imgclas/api.py:248-261 | Entries are built for the zipped pairs, in order. The call succeeds iff every zipped label is known. On failure it reports the first unknown label. |
| Prediction.FormatPrediction | imgclas/api.py:242-262 | Status `ok` and exactly min(\|labels\|, \|probs\|) predictions in input order. The i-th prediction has the i-th label, its class name and metadata, the i-th probability and both links. It succeeds iff every zipped label names a class, and a failure reports the first label that does not (`LabelOutOfRange`). |
| Prediction.KnownIffNamed | imgclas/api.py:249-258 | With a loaded class index, a label has metadata exactly when it names a class (Python indexing, negative indices included). |
| Prediction.MismatchedInfoGivesEmptyMetadata | imgclas/api.py:105-113 | When the info file is missing or has the wrong length, every prediction's metadata is empty. |
| Prediction.Serve | imgclas/api.py:128-134 | A failed request check returns its error and loads nothing. After a passed check, the state is the loaded one (the old one when already loaded). A failed load returns the load's error and keeps the old state. After a successful load the answer is the ranking formatted over the loaded class index, or `PredictionFailure` when the network call raised. |
| Prediction.PredictUrl | imgclas/api.py:174-195 | URLs are validated before anything is loaded: an empty list is `EmptyQuery` and a rejected URL returns its error with the state unchanged. For valid URLs the model is loaded if needed (a failed load returns its error), and the answer is the ranking formatted over the loaded class index, or `PredictionFailure` when the network call raised. A success implies every URL passed. |
| Prediction.PredictData | imgclas/api.py:198-239 | File names are validated before anything is loaded: an empty list is `EmptyQuery` and a rejected file gives `UnsupportedExtension` with the state unchanged. For valid files the model is loaded if needed (a failed load returns its error), and the answer is the ranking formatted over the loaded class index, or `PredictionFailure` when the network call raised. |
| Training.FirstUnresolved | imgclas/api.py:309-311 | The first visited key that is missing from the overrides, or whose text does not decode. It is `None` iff every key resolves. |
| Training.MergeUserConf | imgclas/api.py:309-311 | The merge succeeds iff every schema key resolves. Groups, keys and the other descriptor fields are kept, and each value becomes the decoded override. A failure reports the first unresolved key in the sorted walk. |
| Training.AllResolveIffWalkResolves | imgclas/api.py:309-310 | The sorted nested walk visits exactly the schema's keys, so "every key resolves" can be checked along the walk. |
| Training.ExtraOverridesAreIgnored | imgclas/api.py:309-311 | Overrides for keys outside the schema change nothing. |
| Training.MissingKeyFails | imgclas/api.py:311 | A schema key missing from the overrides makes `train` fail. |
| Metadata.ApplyLine | imgclas/api.py:392-395 | One line updates exactly the fields it starts with, to its text after the first `": "`. It fails iff some field prefixes it and it holds no separator. |
| Metadata.Parse | imgclas/api.py:391-395 | A successful fold keeps exactly the given fields as keys. |
| Metadata.ParseSucceedsIffLinesOk | imgclas/api.py:391-395 | The parse succeeds exactly when every line either matches no field or holds a separator. |
| Metadata.ParseFailsAtFirstBadLine | imgclas/api.py:391-395 | A failing parse reports the first unacceptable line. |
| Metadata.ParsePkgInfoKeepsLatest | imgclas/api.py:391-395 | After a successful parse, each field holds the value of the last line starting with its name, or `None` when no line does. |
| Metadata.ParsePkgInfo | imgclas/api.py:381-395 | With the seven fields of `get_metadata`, the parse succeeds iff every line is acceptable, and the answer has exactly those seven keys. |
| Metadata.AuthorEmailOverwritesAuthor | imgclas/api.py:391-395 | Matching is by prefix, so a trailing `Author-email:` line sets both `Author` and `Author-email` to the address. |
| Callbacks.Milestones | imgclas/model_utils.py:204-205 | One milestone per schedule fraction: the fraction times the epoch count, truncated toward zero. |
| Callbacks.TruncToInt | imgclas/model_utils.py:205 | Truncation toward zero: the floor for non-negative numbers, the ceiling for negative ones. |
| Callbacks.MilestonesWithinRun | imgclas/model_utils.py:204-205 | Fractions in [0, 1] give milestones within the run. |
| Callbacks.GetCallbacks | imgclas/model_utils.py:181-237 | The list is never `None` and holds 2 to 5 callbacks. It starts with `TerminateOnNaN` and `LRHistory`, and the kinds appear in the fixed order. |
| Callbacks.SchedulerFollowsSwitch | imgclas/model_utils.py:203-207 | The LR scheduler is present iff `use_lr_decay`. It comes right after `LRHistory`, with the configured decay and the milestones. |
| Callbacks.RemoteFollowsSwitch | imgclas/model_utils.py:222-223 | `RemoteMonitor` is present iff `use_remote`. |
| Callbacks.Patience | imgclas/model_utils.py:226 | The patience is a tenth of the epoch count truncated toward zero: for a run of n epochs, the largest p with 10p <= n. |
| Callbacks.EarlyStoppingFollowsSwitch | imgclas/model_utils.py:225-226 | Early stopping is present iff validation and early stopping are both on, always with a tenth of the epochs as patience. |
| Callbacks.Schedule | imgclas/model_utils.py:155-162 | At a milestone epoch the rate is multiplied by the decay, and at any other epoch it is kept. For a non-negative rate and a decay in [0, 1], the rate never grows and stays non-negative. |
| Callbacks.LrAfterIsStepDecay | imgclas/model_utils.py:155-162 | After the schedule has run for epochs 0 to n-1, the rate is the initial one multiplied by the decay once per distinct milestone below n. |
| Callbacks.NoDecayKeepsRate | imgclas/model_utils.py:155-162 | Without milestones, or with a decay of 1, the rate never changes. |
| Dicts.WalkVisitsEntries | imgclas/model_utils.py:135-136 | The nested sorted walk visits exactly the entries of the two-level dict. |
| Dicts.WalkInOrder | imgclas/model_utils.py:135-136 | For a dict-shaped configuration, the walk visits entries in strictly increasing (group, key) order. |
| ConfText.ConfTable | imgclas/model_utils.py:133-138 | `conf.txt` is a two-line header followed by exactly the configuration's entries as the sorted walk visits them, with one rule line per group. |
| ConfText.ConfTableInOrder | imgclas/model_utils.py:135-136 | For a dict-shaped configuration, the rows of `conf.txt` are in strictly increasing (group, key) order. |
| ConfText.ConfTableShape | imgclas/model_utils.py:133-138 | After the header there are only rows and rules. A row is followed by a row of the same group or by a rule, and the table ends with a rule when there is a group. |
| ConfText.BlocksRows | imgclas/model_utils.py:135-137 | The rows of the blocks are the sorted walk's entries with their values shown. |
| ConfText.Render | imgclas/model_utils.py:133-138 | Every line ends with a newline. A row is its group left-aligned in a field of 25, its key in a field of 30 and its value in a field of 15, each field space-padded and widened (never truncated) by a longer text, then ` \n`. The header is `group`, `key`, `value` in fields of 25, 30 and 30, then ` \n`, 87 characters in all. A rule is 75 `=` (under the header) or 75 `-` (after a group), then a newline. |
| ConfText.ThreeFields | imgclas/model_utils.py:133-137 | Three `{:<w}` fields followed by ` \n`: each field starts where the one before ends, and the line ends with the space and newline. |
| ConfText.Join | imgclas/model_utils.py:133-138 | Lines written one after another: each line's text sits at the total length of the lines before it, and the text is exactly as long as all of them. |
| ConfText.ConfTxt | imgclas/model_utils.py:132-138 | The file's text is the table's lines written in order, each at its offset. |
| PySeq.SortBy | imgclas/api.py:81 | `sorted` returns its input reordered (same multiset) into non-decreasing code-point order of the key. |
| PySeq.SortByKeepsElements | imgclas/api.py:81 | Sorting keeps the length and exactly the members of its input. |
| PySeq.Filter | imgclas/api.py:95 | The comprehension keeps exactly the members that pass the test. |
| PySeq.PyIndex | imgclas/api.py:249 | Indexing succeeds iff `-len <= i < len`, and a negative index counts from the end. |
| PySeq.LastOfSortedIsGreatest | imgclas/api.py:81 | `sorted(...)[-1]` is at least every element. |
| PyStr.LessTotal | imgclas/api.py:81 | Of two distinct strings, one is smaller in Python's order. |

## Left out

- Keras and TensorFlow work: building, loading and exporting the network, `K.clear_session`, `graph.as_default`, and the `predict` call. The network's ranked labels and probabilities are an input (`ranking`, `None` when the call raised). `imgclas/test_utils.py` is not part of this model.
- I/O: `os.walk`, `os.listdir`, file reads and writes, the HEAD request, temporary files and their `finally` cleanup, and the NextCloud sync. Their results are parameters, and the writes are not modelled.
- `json.loads`, `urlencode`/`quote_plus` and `str()` are opaque function parameters (`decode`, `quote` and `show`). `json.dumps` is used only in `get_train_args`, which is left out. `json.dump` writes the `conf.json` copy in `save_conf`, and that copy is not modelled.
- The environment-variable overlay at the end of `get_metadata`, `get_train_args`, `metadata()`, `check_conf` and the training run itself.
- Process-global state and concurrency: the loaded state is passed in and returned (`Served.state`) instead of living in globals. There is no locking.
- Callbacks.Milestones: exact reals replace floats. A product such as `0.29 * 100` that a float rounds to just below an integer is not modelled; the model truncates the exact product.
- Callbacks.LrAfterIsStepDecay: the rate is an exact real, so float rounding of the repeated products is not modelled. The schedule reads the rate from the optimizer, and the model passes it along instead.
- Training.MergeUserConf: the program updates `CONF` in place, so a failure part-way leaves the earlier keys already updated. The model returns only the error on failure.
- Dicts: a dict is an association list with distinct keys. Sorting compares only keys, which is what `sorted(d.items())` does when keys are distinct.
- Prediction.Entries: the `np.squeeze` of merged predictions is not modelled; labels and probabilities arrive as flat sequences.
- Prediction.PredictData: the `FIXME` wrapping of a single uploaded file into a list is not modelled; the input is already a list of file names.
- The docstring of `load_inference_model` (imgclas/api.py:66-67) promises the last checkpoint when `final_model.h5` is missing. The code filters on `*.h5` instead, and fails on a listing such as `epoch-01.h5`, `epoch-09.h5`. `Loading.SelectCheckpoint` follows the code; see the Findings.

## Findings

| source | as written | input that shows it | evidently intended | confidence | as-written member | corrected member |
|---|---|---|---|---|---|---|
| imgclas/api.py:95 | The checkpoint fallback keeps names that end with the literal `*.h5`. Ordinary checkpoint names never qualify, so `sorted([])[-1]` raises `IndexError`. | `ckpts = ["epoch-01.h5", "epoch-09.h5"]` (no `final_model.h5`) | keep names ending in `.h5` and load the latest one, `epoch-09.h5` | not executed | Loading.EpochCheckpointsFailAsWritten | Loading.EpochCheckpointsSelectLatestIntended |

=== FILE: callbacks.dfy ===
/**
 * The callback list `get_callbacks` hands to Keras' `fit_generator`
 * (imgclas/model_utils.py), as a list of tags, and the step decay rule of
 * `LR_scheduler.schedule` over exact reals.
 */
module Callbacks {
  import opened Wrappers

  /** The callbacks the list can hold; the scheduler and early stopping keep their arguments. */
  datatype Callback =
    | TerminateOnNaN
    | LRHistory
    | LRScheduler(lrDecay: real, epochMilestones: seq<int>)
    | RemoteMonitor
    | EarlyStopping(patience: int)

  /** The entries of `CONF` the assembly reads. */
  datatype TrainingConf = TrainingConf(
    epochs: int,
    lrStepSchedule: seq<real>,
    lrStepDecay: real,
    useValidation: bool,
    useEarlyStopping: bool,
    useRemote: bool)

  /** Position of each kind of callback in the list `get_callbacks` builds. */
  function Rank(c: Callback): nat {
    match c
    case TerminateOnNaN => 0
    case LRHistory => 1
    case LRScheduler(_, _) => 2
    case RemoteMonitor => 3
    case EarlyStopping(_) => 4
  }

  /** Python's `int()` of a number and numpy's `astype(int)`: truncation toward zero. */
  function TruncToInt(x: real): (r: int)
    ensures x >= 0.0 ==> r as real <= x < r as real + 1.0
    ensures x < 0.0 ==> r as real - 1.0 < x <= r as real
  {
    if x >= 0.0 then x.Floor else -((-x).Floor)
  }

  /** The epoch a fraction of the run falls on, truncated. */
  function MilestoneOf(fraction: real, epochs: int): int {
    TruncToInt(fraction * epochs as real)
  }

  /** `(np.array(lr_step_schedule) * epochs).astype(int)`, in exact arithmetic. */
  function Milestones(schedule: seq<real>, epochs: int): (r: seq<int>)
    ensures |r| == |schedule|
    ensures forall i | 0 <= i < |r| :: r[i] == MilestoneOf(schedule[i], epochs)
  {
    if |schedule| == 0 then []
    else [MilestoneOf(schedule[0], epochs)] + Milestones(schedule[1..], epochs)
  }

  lemma FractionOfRun(a: real, epochs: nat)
    requires 0.0 <= a <= 1.0
    ensures 0 <= MilestoneOf(a, epochs) <= epochs
  {
    var e := epochs as real;
    assert 0.0 <= a * e by {
      assert 0.0 <= e;
    }
    assert a * e <= e by {
      assert e - a * e == (1.0 - a) * e;
      assert (1.0 - a) * e >= 0.0;
    }
  }

  /** Fractions of the run turn into epochs of the run. */
  lemma MilestonesWithinRun(schedule: seq<real>, epochs: nat)
    requires forall i | 0 <= i < |schedule| :: 0.0 <= schedule[i] <= 1.0
    ensures forall i | 0 <= i < |schedule| :: 0 <= Milestones(schedule, epochs)[i] <= epochs
  {
    forall i | 0 <= i < |schedule|
      ensures 0 <= Milestones(schedule, epochs)[i] <= epochs
    {
      FractionOfRun(schedule[i], epochs);
    }
  }

  /**
   * `int(0.1 * epochs)`, the early-stopping patience: a tenth of the run,
   * truncated toward zero.
   */
  function Patience(epochs: int): (r: int)
    ensures epochs >= 0 ==> 0 <= 10 * r <= epochs < 10 * r + 10
    ensures epochs < 0 ==> 10 * r - 10 < epochs <= 10 * r <= 0
  {
    TruncToInt(0.1 * epochs as real)
  }

  /**
   * `get_callbacks`: the two mandatory callbacks, then the scheduler when
   * `use_lr_decay`, the remote monitor when `use_remote`, early stopping
   * when both validation and early stopping are on. The `None` answer for
   * an empty list is never reached.
   */
  function GetCallbacks(conf: TrainingConf, useLrDecay: bool): (r: Option<seq<Callback>>)
    ensures r.Some?
    ensures 2 <= |r.value| <= 5
    ensures r.value[0] == TerminateOnNaN && r.value[1] == LRHistory
    ensures forall i, j | 0 <= i < j < |r.value| :: Rank(r.value[i]) < Rank(r.value[j])
  {
    var withLr := [TerminateOnNaN, LRHistory] + Optional(useLrDecay, Scheduler(conf));
    var withRemote := withLr + Optional(conf.useRemote, RemoteMonitor);
    var calls := withRemote + Optional(conf.useValidation && conf.useEarlyStopping, EarlyStopping(Patience(conf.epochs)));
    if |calls| == 0 then None else Some(calls)
  }

  /** The scheduler `get_callbacks` builds from the configuration. */
  function Scheduler(conf: TrainingConf): Callback {
    LRScheduler(conf.lrStepDecay, Milestones(conf.lrStepSchedule, conf.epochs))
  }

  /** A one-element list when the option is on. */
  function Optional(on: bool, c: Callback): (r: seq<Callback>)
    ensures |r| <= 1 && (on <==> r == [c])
  {
    if on then [c] else []
  }

  /** The list, as the concatenation of its mandatory part and the three optional parts. */
  lemma CallbacksParts(conf: TrainingConf, useLrDecay: bool)
    ensures GetCallbacks(conf, useLrDecay).value ==
      [TerminateOnNaN, LRHistory] + Optional(useLrDecay, Scheduler(conf))
        + Optional(conf.useRemote, RemoteMonitor)
        + Optional(conf.useValidation && conf.useEarlyStopping, EarlyStopping(Patience(conf.epochs)))
  {
  }

  /** The scheduler is in the list exactly when `use_lr_decay`, right after the two mandatory callbacks. */
  lemma SchedulerFollowsSwitch(conf: TrainingConf, useLrDecay: bool)
    ensures var cs := GetCallbacks(conf, useLrDecay).value;
      && (useLrDecay <==> exists i | 0 <= i < |cs| :: cs[i].LRScheduler?)
      && (useLrDecay ==> cs[2] == Scheduler(conf))
  {
    var cs := GetCallbacks(conf, useLrDecay).value;
    CallbacksParts(conf, useLrDecay);
    if useLrDecay {
      assert cs[2].LRScheduler?;
    } else {
      forall i | 0 <= i < |cs|
        ensures !cs[i].LRScheduler?
      {
        assert Rank(cs[i]) != 2 by {
          if i >= 2 {
            assert cs[i] == RemoteMonitor || cs[i].EarlyStopping?;
          }
        }
      }
    }
  }

  /** The remote monitor is in the list exactly when `use_remote`. */
  lemma RemoteFollowsSwitch(conf: TrainingConf, useLrDecay: bool)
    ensures conf.useRemote <==> RemoteMonitor in GetCallbacks(conf, useLrDecay).value
  {
    var cs := GetCallbacks(conf, useLrDecay).value;
    CallbacksParts(conf, useLrDecay);
    var head := [TerminateOnNaN, LRHistory] + Optional(useLrDecay, Scheduler(conf));
    var es := Optional(conf.useValidation && conf.useEarlyStopping, EarlyStopping(Patience(conf.epochs)));
    assert RemoteMonitor !in head && RemoteMonitor !in es;
  }

  /**
   * Early stopping, with a tenth of the run as patience, is in the list
   * exactly when both validation and early stopping are on.
   */
  lemma EarlyStoppingFollowsSwitch(conf: TrainingConf, useLrDecay: bool)
    ensures var cs := GetCallbacks(conf, useLrDecay).value;
      && (conf.useValidation && conf.useEarlyStopping <==> EarlyStopping(Patience(conf.epochs)) in cs)
      && (forall i | 0 <= i < |cs| :: cs[i].EarlyStopping? ==> cs[i].patience == Patience(conf.epochs))
  {
    var cs := GetCallbacks(conf, useLrDecay).value;
    CallbacksParts(conf, useLrDecay);
    var head := [TerminateOnNaN, LRHistory] + Optional(useLrDecay, Scheduler(conf)) + Optional(conf.useRemote, RemoteMonitor);
    assert forall i | 0 <= i < |head| :: !head[i].EarlyStopping?;
  }

  /** One callback per switched-on option, on top of the two mandatory ones. */
  lemma CallbackCount(conf: TrainingConf, useLrDecay: bool)
    ensures |GetCallbacks(conf, useLrDecay).value| ==
      2 + (if useLrDecay then 1 else 0) + (if conf.useRemote then 1 else 0)
        + (if conf.useValidation && conf.useEarlyStopping then 1 else 0)
  {
  }

  /**
   * `LR_scheduler.schedule` for one epoch: the current rate is multiplied
   * by the decay when the epoch is a milestone and kept otherwise.
   */
  function Schedule(epoch: int, currentLr: real, lrDecay: real, milestones: seq<int>): (r: real)
    ensures epoch in milestones ==> r == currentLr * lrDecay
    ensures epoch !in milestones ==> r == currentLr
    ensures 0.0 <= currentLr && 0.0 <= lrDecay <= 1.0 ==> 0.0 <= r <= currentLr
  {
    if epoch in milestones then currentLr * lrDecay else currentLr
  }

  /** The rate in force after Keras has called the schedule for epochs `0 .. n-1` in turn. */
  function LrAfter(lr0: real, lrDecay: real, milestones: seq<int>, n: nat): real {
    if n == 0 then lr0 else Schedule(n - 1, LrAfter(lr0, lrDecay, milestones, n - 1), lrDecay, milestones)
  }

  /** `lr` multiplied `k` times by `d`. */
  function Decayed(lr: real, d: real, k: nat): real {
    if k == 0 then lr else Decayed(lr, d, k - 1) * d
  }

  /** The distinct milestones among the epochs `0 .. n-1`. */
  function MilestonesBefore(milestones: seq<int>, n: nat): set<int> {
    set e | e in milestones && 0 <= e < n
  }

  /** Epoch `n` adds one milestone to the count exactly when it is listed. */
  lemma MilestonesBeforeStep(milestones: seq<int>, n: nat)
    ensures |MilestonesBefore(milestones, n + 1)| ==
      |MilestonesBefore(milestones, n)| + (if n in milestones then 1 else 0)
  {
    if n in milestones {
      assert MilestonesBefore(milestones, n + 1) == MilestonesBefore(milestones, n) + {n};
    } else {
      assert MilestonesBefore(milestones, n + 1) == MilestonesBefore(milestones, n);
    }
  }

  /**
   * The step decay, closed form: after `n` epochs the rate is the initial
   * one times the decay once per distinct milestone below `n`, so a
   * milestone listed twice decays only once.
   */
  lemma {:induction false} LrAfterIsStepDecay(lr0: real, lrDecay: real, milestones: seq<int>, n: nat)
    ensures LrAfter(lr0, lrDecay, milestones, n) == Decayed(lr0, lrDecay, |MilestonesBefore(milestones, n)|)
  {
    if n > 0 {
      LrAfterIsStepDecay(lr0, lrDecay, milestones, n - 1);
      MilestonesBeforeStep(milestones, n - 1);
    }
  }

  /** Without milestones, or with a decay of one, the rate never changes. */
  lemma {:induction false} NoDecayKeepsRate(lr0: real, lrDecay: real, milestones: seq<int>, n: nat)
    requires |milestones| == 0 || lrDecay == 1.0
    ensures LrAfter(lr0, lrDecay, milestones, n) == lr0
  {
    if n > 0 {
      NoDecayKeepsRate(lr0, lrDecay, milestones, n - 1);
    }
  }
}

=== FILE: conftext.dfy ===
/**
 * The human-readable `conf.txt` that `save_conf` writes
 * (imgclas/model_utils.py). `show` stands for Python's `str` on a value;
 * the JSON copy and the file writes are not modelled.
 */
module ConfText {
  import opened PyStr
  import opened Dicts
  import Json

  datatype TxtLine =
    | Header                                        // the column titles
    | HeaderRule                                    // 75 `=`
    | Row(group: string, key: string, value: string)
    | GroupRule                                     // 75 `-`, closing a group

  /** The width a `{:<width}` field takes: the width, or the whole text when it is longer. */
  function FieldWidth(s: string, width: nat): nat {
    if |s| < width then width else |s|
  }

  /**
   * `r` holds the field `s`, left-aligned at column `at`, followed by spaces
   * up to the end of the field.
   */
  predicate FieldAt(r: string, at: nat, s: string, width: nat) {
    && at + FieldWidth(s, width) <= |r|
    && r[at..at + |s|] == s
    && forall i | at + |s| <= i < at + FieldWidth(s, width) :: r[i] == ' '
  }

  /** A padded field written after `before` sits where it is put. */
  lemma PaddedField(before: string, s: string, width: nat)
    ensures FieldAt(before + PadRight(s, width), |before|, s, width)
  {
    var r := before + PadRight(s, width);
    var p := PadRight(s, width);
    assert r[|before|..] == p;
    assert r[|before|..|before| + |s|] == p[..|s|];
    forall i | |before| + |s| <= i < |before| + FieldWidth(s, width)
      ensures r[i] == ' '
    {
      assert r[i] == p[i - |before|];
    }
  }

  /** Writing more text after a field leaves it in place. */
  lemma FieldKept(r: string, at: nat, s: string, width: nat, more: string)
    requires FieldAt(r, at, s, width)
    ensures FieldAt(r + more, at, s, width)
  {
    assert (r + more)[at..at + |s|] == r[at..at + |s|];
  }

  /** Three padded fields, a space and a newline: each field sits at the end of the one before. */
  lemma ThreeFields(a: string, wa: nat, b: string, wb: nat, c: string, wc: nat)
    ensures var r := PadRight(a, wa) + PadRight(b, wb) + PadRight(c, wc) + " \n";
      var x := FieldWidth(a, wa);
      var y := x + FieldWidth(b, wb);
      var z := y + FieldWidth(c, wc);
      && |r| == z + 2 && r[z..] == " \n"
      && FieldAt(r, 0, a, wa) && FieldAt(r, x, b, wb) && FieldAt(r, y, c, wc)
  {
    var pa, pb, pc := PadRight(a, wa), PadRight(b, wb), PadRight(c, wc);
    PaddedField([], a, wa);
    assert [] + pa == pa;
    PaddedField(pa, b, wb);
    FieldKept(pa, 0, a, wa, pb);
    PaddedField(pa + pb, c, wc);
    FieldKept(pa + pb, 0, a, wa, pc);
    FieldKept(pa + pb, |pa|, b, wb, pc);
    var r3 := pa + pb + pc;
    FieldKept(r3, 0, a, wa, " \n");
    FieldKept(r3, |pa|, b, wb, " \n");
    FieldKept(r3, |pa + pb|, c, wc, " \n");
    assert (r3 + " \n")[|r3|..] == " \n";
  }

  /**
   * The text of one line, with the column widths of the format strings:
   * a row is its group in a field of 25, its key in a field of 30 and its
   * value in a field of 15, each widened by a longer text and never
   * truncated, then a space and a newline; the header uses fields of 25,
   * 30 and 30; a rule is 75 `=` or `-` and a newline.
   */
  function Render(line: TxtLine): (r: string)
    ensures EndsWith(r, "\n")
    ensures line.Row? ==>
      var a := FieldWidth(line.group, 25);
      var b := a + FieldWidth(line.key, 30);
      var c := b + FieldWidth(line.value, 15);
      && |r| == c + 2 && r[c..] == " \n"
      && FieldAt(r, 0, line.group, 25) && FieldAt(r, a, line.key, 30) && FieldAt(r, b, line.value, 15)
    ensures line.Header? ==>
      && |r| == 87 && r[85..] == " \n"
      && FieldAt(r, 0, "group", 25) && FieldAt(r, 25, "key", 30) && FieldAt(r, 55, "value", 30)
    ensures line.HeaderRule? ==> |r| == 76 && r[75] == '\n' && forall i | 0 <= i < 75 :: r[i] == '='
    ensures line.GroupRule? ==> |r| == 76 && r[75] == '\n' && forall i | 0 <= i < 75 :: r[i] == '-'
  {
    match line
    case Header =>
      ThreeFields("group", 25, "key", 30, "value", 30);
      PadRight("group", 25) + PadRight("key", 30) + PadRight("value", 30) + " \n"
    case HeaderRule => Repeat('=', 75) + "\n"
    case Row(group, key, value) =>
      ThreeFields(group, 25, key, 30, value, 15);
      PadRight(group, 25) + PadRight(key, 30) + PadRight(value, 15) + " \n"
    case GroupRule => Repeat('-', 75) + "\n"
  }

  /** One row per item of a group, in the given order. */
  function GroupRows(group: string, kvs: Dict<Json.Value>, show: Json.Value -> string): (r: seq<TxtLine>)
    ensures |r| == |kvs|
    ensures forall i | 0 <= i < |r| :: r[i] == Row(group, kvs[i].0, show(kvs[i].1))
  {
    seq(|kvs|, i requires 0 <= i < |kvs| => Row(group, kvs[i].0, show(kvs[i].1)))
  }

  /** The lines for groups taken in the given order: each group's rows by sorted key, then a rule. */
  function Blocks(groups: Nested<Json.Value>, show: Json.Value -> string): seq<TxtLine> {
    if |groups| == 0 then []
    else GroupRows(groups[0].0, Items(groups[0].1), show) + [GroupRule] + Blocks(groups[1..], show)
  }

  /** The rows of a table, in order, as the entries they print. */
  function RowEntries(lines: seq<TxtLine>): seq<(string, string, string)> {
    if |lines| == 0 then []
    else
      (if lines[0].Row? then [(lines[0].group, lines[0].key, lines[0].value)] else [])
      + RowEntries(lines[1..])
  }

  function Shown(entries: seq<Entry<Json.Value>>, show: Json.Value -> string): (r: seq<(string, string, string)>)
    ensures |r| == |entries|
    ensures forall i | 0 <= i < |r| :: r[i] == (entries[i].0, entries[i].1, show(entries[i].2))
  {
    seq(|entries|, i requires 0 <= i < |entries| => (entries[i].0, entries[i].1, show(entries[i].2)))
  }

  function CountRules(lines: seq<TxtLine>): nat {
    if |lines| == 0 then 0 else (if lines[0].GroupRule? then 1 else 0) + CountRules(lines[1..])
  }

  lemma {:induction false} RowEntriesAppend(a: seq<TxtLine>, b: seq<TxtLine>)
    ensures RowEntries(a + b) == RowEntries(a) + RowEntries(b)
    ensures CountRules(a + b) == CountRules(a) + CountRules(b)
  {
    if |a| > 0 {
      RowEntriesAppend(a[1..], b);
      assert (a + b)[1..] == a[1..] + b;
    } else {
      assert a + b == b;
    }
  }

  lemma {:induction false} RowsOnly(g: string, kvs: Dict<Json.Value>, show: Json.Value -> string)
    ensures RowEntries(GroupRows(g, kvs, show)) == Shown(RowsOf(g, kvs), show)
    ensures CountRules(GroupRows(g, kvs, show)) == 0
  {
    var rows := GroupRows(g, kvs, show);
    if |kvs| > 0 {
      RowsOnly(g, kvs[1..], show);
      assert rows[1..] == GroupRows(g, kvs[1..], show);
      assert Shown(RowsOf(g, kvs), show) == [(g, kvs[0].0, show(kvs[0].1))] + Shown(RowsOf(g, kvs[1..]), show);
      assert rows == [rows[0]] + rows[1..];
      RowEntriesAppend([rows[0]], rows[1..]);
    }
  }

  lemma ShownAppend(a: seq<Entry<Json.Value>>, b: seq<Entry<Json.Value>>, show: Json.Value -> string)
    ensures Shown(a + b, show) == Shown(a, show) + Shown(b, show)
  {
    var l := Shown(a + b, show);
    var r := Shown(a, show) + Shown(b, show);
    forall i | 0 <= i < |l|
      ensures l[i] == r[i]
    {
      if i < |a| {
        assert (a + b)[i] == a[i];
      } else {
        assert (a + b)[i] == b[i - |a|];
      }
    }
  }

  /** The rows of a non-empty list of blocks: the first group's rows, then the rest's. */
  lemma BlocksRowsStep(groups: Nested<Json.Value>, show: Json.Value -> string)
    requires |groups| > 0
    ensures RowEntries(Blocks(groups, show)) ==
      Shown(RowsOf(groups[0].0, Items(groups[0].1)), show) + RowEntries(Blocks(groups[1..], show))
  {
    var rows := GroupRows(groups[0].0, Items(groups[0].1), show);
    var closed := rows + [GroupRule];
    var rest := Blocks(groups[1..], show);
    assert RowEntries(Blocks(groups, show)) == RowEntries(closed) + RowEntries(rest) by {
      assert Blocks(groups, show) == closed + rest;
      RowEntriesAppend(closed, rest);
    }
    assert RowEntries(closed) == RowEntries(rows) by {
      RowEntriesAppend(rows, [GroupRule]);
      assert RowEntries([GroupRule]) == [];
      assert RowEntries(rows) + [] == RowEntries(rows);
    }
    RowsOnly(groups[0].0, Items(groups[0].1), show);
  }

  /** The shown entries of a non-empty list of groups: the first group's, then the rest's. */
  lemma ShownFlattenStep(groups: Nested<Json.Value>, show: Json.Value -> string)
    requires |groups| > 0
    ensures Shown(Flatten(groups), show) ==
      Shown(RowsOf(groups[0].0, Items(groups[0].1)), show) + Shown(Flatten(groups[1..]), show)
  {
    ShownAppend(RowsOf(groups[0].0, Items(groups[0].1)), Flatten(groups[1..]), show);
  }

  /** The rows of the blocks are the flattened entries. */
  lemma {:induction false} BlocksRows(groups: Nested<Json.Value>, show: Json.Value -> string)
    ensures RowEntries(Blocks(groups, show)) == Shown(Flatten(groups), show)
  {
    if |groups| > 0 {
      BlocksRowsStep(groups, show);
      ShownFlattenStep(groups, show);
      BlocksRows(groups[1..], show);
    }
  }

  /** There is one rule line per group. */
  lemma {:induction false} BlocksRuleCount(groups: Nested<Json.Value>, show: Json.Value -> string)
    ensures CountRules(Blocks(groups, show)) == |groups|
  {
    if |groups| > 0 {
      var rows := GroupRows(groups[0].0, Items(groups[0].1), show);
      var rest := Blocks(groups[1..], show);
      calc {
        CountRules(Blocks(groups, show));
        CountRules(rows + [GroupRule] + rest);
        { RowEntriesAppend(rows + [GroupRule], rest); }
        CountRules(rows + [GroupRule]) + CountRules(rest);
        { RowEntriesAppend(rows, [GroupRule]); }
        CountRules(rows) + CountRules([GroupRule]) + CountRules(rest);
        { RowsOnly(groups[0].0, Items(groups[0].1), show); BlocksRuleCount(groups[1..], show); }
        1 + |groups[1..]|;
      }
    }
  }

  /**
   * The lines of `conf.txt`: a two-line header, then the groups in sorted
   * order. Its rows are exactly the configuration's entries in the order
   * the nested dict is walked, and there is one rule line per group.
   */
  function ConfTable(conf: Nested<Json.Value>, show: Json.Value -> string): (t: seq<TxtLine>)
    ensures |t| >= 2 && t[0] == Header && t[1] == HeaderRule && t[2..] == Blocks(Items(conf), show)
    ensures RowEntries(t) == Shown(Walk(conf), show)
    ensures CountRules(t) == |conf|
  {
    var head := [Header, HeaderRule];
    var blocks := Blocks(Items(conf), show);
    BlocksRows(Items(conf), show);
    BlocksRuleCount(Items(conf), show);
    RowEntriesAppend(head, blocks);
    assert RowEntries(head) == [] && CountRules(head) == 0 by {
      assert head[1..] == [HeaderRule];
    }
    assert |Items(conf)| == |conf| by {
      assert |multiset(Items(conf))| == |multiset(conf)|;
    }
    head + blocks
  }

  /**
   * `conf.txt` prints the configuration's entries in strictly increasing
   * (group, key) order.
   */
  lemma ConfTableInOrder(conf: Nested<Json.Value>, show: Json.Value -> string)
    requires WellFormed(conf)
    ensures var rows := RowEntries(ConfTable(conf, show));
      forall i, j | 0 <= i < j < |rows| ::
        Less(rows[i].0, rows[j].0) || (rows[i].0 == rows[j].0 && Less(rows[i].1, rows[j].1))
  {
    var rows := RowEntries(ConfTable(conf, show));
    WalkInOrder(conf);
    forall i, j | 0 <= i < j < |rows|
      ensures Less(rows[i].0, rows[j].0) || (rows[i].0 == rows[j].0 && Less(rows[i].1, rows[j].1))
    {
      assert Before(Walk(conf)[i], Walk(conf)[j]);
    }
  }

  /** Where piece `i` starts once the pieces are written one after the other. */
  function Offset(pieces: seq<string>, i: nat): nat
    requires i <= |pieces|
  {
    if i == 0 then 0 else Offset(pieces, i - 1) + |pieces[i - 1]|
  }

  /** One more piece at the end moves no piece before it. */
  lemma {:induction false} OffsetOfSnoc(front: seq<string>, p: string, i: nat)
    requires i <= |front|
    ensures Offset(front + [p], i) == Offset(front, i)
  {
    if i > 0 {
      OffsetOfSnoc(front, p, i - 1);
      assert (front + [p])[i - 1] == front[i - 1];
    }
  }

  /** Piece `i` of `pieces` sits at its offset in `r`. */
  predicate PieceAt(r: string, pieces: seq<string>, i: nat)
    requires i < |pieces|
  {
    Offset(pieces, i) + |pieces[i]| <= |r| && r[Offset(pieces, i)..Offset(pieces, i) + |pieces[i]|] == pieces[i]
  }

  /** A piece already written stays in place when one more is written. */
  lemma PieceKept(front: seq<string>, p: string, init: string, i: nat)
    requires i < |front| && PieceAt(init, front, i)
    ensures PieceAt(init + p, front + [p], i)
  {
    OffsetOfSnoc(front, p, i);
    var o, q := Offset(front, i), front[i];
    assert (front + [p])[i] == q;
    assert (init + p)[o..o + |q|] == init[o..o + |q|];
  }

  /** The piece written last sits at the end of what was there before. */
  lemma PieceAdded(front: seq<string>, p: string, init: string)
    requires |init| == Offset(front, |front|)
    ensures PieceAt(init + p, front + [p], |front|)
  {
    OffsetOfSnoc(front, p, |front|);
    assert (front + [p])[|front|] == p;
    assert (init + p)[|init|..|init| + |p|] == p;
  }

  /** Writing one more piece keeps the pieces before it in place and puts it at its offset. */
  lemma JoinStep(front: seq<string>, p: string, init: string)
    requires |init| == Offset(front, |front|)
    requires forall i | 0 <= i < |front| :: PieceAt(init, front, i)
    ensures |init + p| == Offset(front + [p], |front| + 1)
    ensures forall i | 0 <= i < |front| + 1 :: PieceAt(init + p, front + [p], i)
  {
    PieceAdded(front, p, init);
    OffsetOfSnoc(front, p, |front|);
    assert (front + [p])[|front|] == p;
    forall i | 0 <= i < |front|
      ensures PieceAt(init + p, front + [p], i)
    {
      PieceKept(front, p, init, i);
    }
  }

  /** Successive writes: each piece sits at its offset in the text. */
  function Join(pieces: seq<string>): (r: string)
    ensures |r| == Offset(pieces, |pieces|)
    ensures forall i | 0 <= i < |pieces| :: PieceAt(r, pieces, i)
  {
    if |pieces| == 0 then ""
    else
      var front, p := pieces[..|pieces| - 1], pieces[|pieces| - 1];
      JoinStep(front, p, Join(front));
      assert front + [p] == pieces;
      Join(front) + p
  }

  /** The text of each line. */
  function Rendered(lines: seq<TxtLine>): (r: seq<string>)
    ensures |r| == |lines| && forall i | 0 <= i < |r| :: r[i] == Render(lines[i])
  {
    seq(|lines|, i requires 0 <= i < |lines| => Render(lines[i]))
  }

  /**
   * The text of `conf.txt`: the lines of the table written one after the
   * other, each line's text at its offset.
   */
  function ConfTxt(conf: Nested<Json.Value>, show: Json.Value -> string): (r: string)
    ensures var pieces := Rendered(ConfTable(conf, show));
      |r| == Offset(pieces, |pieces|) && forall i | 0 <= i < |pieces| :: PieceAt(r, pieces, i)
  {
    Join(Rendered(ConfTable(conf, show)))
  }

  /** The blocks hold only rows and rules, and end with a rule when there is a group. */
  lemma {:induction false} BlocksLines(groups: Nested<Json.Value>, show: Json.Value -> string)
    ensures forall i | 0 <= i < |Blocks(groups, show)| :: Blocks(groups, show)[i].Row? || Blocks(groups, show)[i].GroupRule?
    ensures |groups| > 0 ==> |Blocks(groups, show)| > 0 && Blocks(groups, show)[|Blocks(groups, show)| - 1].GroupRule?
  {
    if |groups| > 0 {
      var rows := GroupRows(groups[0].0, Items(groups[0].1), show);
      var rest := Blocks(groups[1..], show);
      BlocksLines(groups[1..], show);
      var b := rows + [GroupRule] + rest;
      assert b == Blocks(groups, show);
      forall i | 0 <= i < |b|
        ensures b[i].Row? || b[i].GroupRule?
      {
        if i < |rows| {
          assert b[i] == rows[i];
        } else if i > |rows| {
          assert b[i] == rest[i - |rows| - 1];
        }
      }
    }
  }

  /** The line after a row is a row of the same group or a rule. */
  ghost predicate ClosesGroups(b: seq<TxtLine>) {
    forall i | 0 <= i < |b| - 1 && b[i].Row? :: (b[i + 1].Row? && b[i + 1].group == b[i].group) || b[i + 1].GroupRule?
  }

  lemma ClosesGroupsAppend(g: string, rows: seq<TxtLine>, rest: seq<TxtLine>)
    requires forall i | 0 <= i < |rows| :: rows[i].Row? && rows[i].group == g
    requires ClosesGroups(rest)
    ensures ClosesGroups(rows + [GroupRule] + rest)
  {
    var b := rows + [GroupRule] + rest;
    forall i | 0 <= i < |b| - 1 && b[i].Row?
      ensures (b[i + 1].Row? && b[i + 1].group == b[i].group) || b[i + 1].GroupRule?
    {
      if i < |rows| - 1 {
        assert b[i] == rows[i] && b[i + 1] == rows[i + 1];
      } else if i == |rows| - 1 {
        assert b[i + 1] == GroupRule;
      } else {
        assert b[i] == rest[i - |rows| - 1] && b[i + 1] == rest[i - |rows|];
      }
    }
  }

  /** A rule line closes every group. */
  lemma {:induction false} BlocksCloseGroups(groups: Nested<Json.Value>, show: Json.Value -> string)
    ensures ClosesGroups(Blocks(groups, show))
  {
    if |groups| > 0 {
      BlocksCloseGroups(groups[1..], show);
      ClosesGroupsAppend(groups[0].0, GroupRows(groups[0].0, Items(groups[0].1), show), Blocks(groups[1..], show));
    }
  }

  lemma ConfTableShape(conf: Nested<Json.Value>, show: Json.Value -> string)
    ensures var t := ConfTable(conf, show);
      && (forall i | 2 <= i < |t| :: t[i].Row? || t[i].GroupRule?)
      && (forall i | 2 <= i < |t| - 1 && t[i].Row? :: (t[i + 1].Row? && t[i + 1].group == t[i].group) || t[i + 1].GroupRule?)
      && (|conf| > 0 ==> t[|t| - 1].GroupRule?)
  {
    var b := Blocks(Items(conf), show);
    BlocksLines(Items(conf), show);
    BlocksCloseGroups(Items(conf), show);
    assert |Items(conf)| == |conf| by {
      assert |multiset(Items(conf))| == |multiset(conf)|;
    }
    var t := ConfTable(conf, show);
    assert |t| == |b| + 2;
    forall i | 2 <= i < |t|
      ensures t[i].Row? || t[i].GroupRule?
    {
      assert t[i] == t[2..][i - 2] == b[i - 2];
    }
    forall i | 2 <= i < |t| - 1 && t[i].Row?
      ensures (t[i + 1].Row? && t[i + 1].group == t[i].group) || t[i + 1].GroupRule?
    {
      assert t[i] == t[2..][i - 2] == b[i - 2];
      assert t[i + 1] == t[2..][i - 1] == b[i - 1];
    }
    if |conf| > 0 {
      assert t[|t| - 1] == t[2..][|b| - 1] == b[|b| - 1];
    }
  }
}

=== FILE: dicts.dfy ===
/**
 * Python dicts as association lists in insertion order, and the nested
 * `group -> key -> value` configuration dicts walked in sorted order by
 * both `train` (imgclas/api.py) and `save_conf` (imgclas/model_utils.py).
 */
module Dicts {
  import opened PyStr
  import opened PySeq

  /** A dict: its items in insertion order. */
  type Dict<T> = seq<(string, T)>

  /** A two-level configuration dict: group name to a dict of keys. */
  type Nested<T> = Dict<Dict<T>>

  /** One visited entry: (group, key, value). */
  type Entry<T> = (string, string, T)

  function KeyOf<T>(item: (string, T)): string { item.0 }

  /** What every Python dict satisfies: no key twice, at either level. */
  ghost predicate WellFormed<T>(n: Nested<T>) {
    && DistinctBy(n, KeyOf)
    && forall i | 0 <= i < |n| :: DistinctBy(n[i].1, KeyOf)
  }

  /** `sorted(d.items())`: keys are distinct, so only they are ever compared. */
  function Items<T>(d: Dict<T>): (r: Dict<T>)
    ensures SortedBy(r, KeyOf)
    ensures multiset(r) == multiset(d)
  {
    SortBy(d, KeyOf)
  }

  function RowsOf<T>(group: string, kvs: Dict<T>): (r: seq<Entry<T>>)
    ensures |r| == |kvs|
    ensures forall i | 0 <= i < |r| :: r[i] == (group, kvs[i].0, kvs[i].1)
  {
    seq(|kvs|, i requires 0 <= i < |kvs| => (group, kvs[i].0, kvs[i].1))
  }

  /** The groups in the given order, each group's keys in sorted order. */
  function Flatten<T>(groups: Nested<T>): seq<Entry<T>> {
    if |groups| == 0 then []
    else RowsOf(groups[0].0, Items(groups[0].1)) + Flatten(groups[1..])
  }

  /**
   * `for group, val in sorted(conf.items()): for key, v in sorted(val.items())`:
   * the entries in the order the nested loop visits them.
   */
  function Walk<T>(n: Nested<T>): seq<Entry<T>> {
    Flatten(Items(n))
  }

  /** Entry `a` is visited before entry `b`: by group, then by key. */
  ghost predicate Before<T>(a: Entry<T>, b: Entry<T>) {
    Less(a.0, b.0) || (a.0 == b.0 && Less(a.1, b.1))
  }

  ghost predicate InOrder<T>(entries: seq<Entry<T>>) {
    forall i, j | 0 <= i < j < |entries| :: Before(entries[i], entries[j])
  }

  /** `(g, k, v)` is an entry of the nested dict. */
  ghost predicate HasEntry<T>(n: Nested<T>, e: Entry<T>) {
    exists i, j | 0 <= i < |n| && 0 <= j < |n[i].1| :: n[i].0 == e.0 && n[i].1[j] == (e.1, e.2)
  }

  /** Every entry of `Flatten(groups)` belongs to one of the groups. */
  lemma {:induction false} FlattenComesFrom<T>(groups: Nested<T>, e: Entry<T>)
    requires e in Flatten(groups)
    ensures HasEntry(groups, e)
  {
    var rows := RowsOf(groups[0].0, Items(groups[0].1));
    if e in rows {
      var j :| 0 <= j < |rows| && rows[j] == e;
      var kv := Items(groups[0].1)[j];
      assert kv in multiset(Items(groups[0].1));
      var j' :| 0 <= j' < |groups[0].1| && groups[0].1[j'] == kv;
      assert groups[0].0 == e.0 && groups[0].1[j'] == (e.1, e.2);
    } else {
      FlattenComesFrom(groups[1..], e);
      var i, j :| 0 <= i < |groups[1..]| && 0 <= j < |groups[1..][i].1|
        && groups[1..][i].0 == e.0 && groups[1..][i].1[j] == (e.1, e.2);
      assert groups[i + 1] == groups[1..][i];
    }
  }

  /** Every entry of the groups appears in `Flatten(groups)`. */
  lemma {:induction false} FlattenReaches<T>(groups: Nested<T>, i: int, j: int)
    requires 0 <= i < |groups| && 0 <= j < |groups[i].1|
    ensures (groups[i].0, groups[i].1[j].0, groups[i].1[j].1) in Flatten(groups)
  {
    if i == 0 {
      var kv := groups[0].1[j];
      assert kv in multiset(Items(groups[0].1));
      var k :| 0 <= k < |Items(groups[0].1)| && Items(groups[0].1)[k] == kv;
      var rows := RowsOf(groups[0].0, Items(groups[0].1));
      assert rows[k] == (groups[0].0, kv.0, kv.1);
    } else {
      FlattenReaches(groups[1..], i - 1, j);
    }
  }

  /** The walk visits exactly the entries of the nested dict. */
  lemma WalkVisitsEntries<T>(n: Nested<T>, e: Entry<T>)
    ensures e in Walk(n) <==> HasEntry(n, e)
  {
    var groups := Items(n);
    if e in Walk(n) {
      FlattenComesFrom(groups, e);
      var i, j :| 0 <= i < |groups| && 0 <= j < |groups[i].1| && groups[i].0 == e.0 && groups[i].1[j] == (e.1, e.2);
      assert groups[i] in multiset(n);
      var i' :| 0 <= i' < |n| && n[i'] == groups[i];
      assert n[i'].0 == e.0 && n[i'].1[j] == (e.1, e.2);
    }
    if HasEntry(n, e) {
      var i, j :| 0 <= i < |n| && 0 <= j < |n[i].1| && n[i].0 == e.0 && n[i].1[j] == (e.1, e.2);
      assert n[i] in multiset(groups);
      var i' :| 0 <= i' < |groups| && groups[i'] == n[i];
      FlattenReaches(groups, i', j);
    }
  }

  /** Every entry of `Flatten(groups)` is in a group named by some element of `groups`. */
  lemma FlattenGroupNamed<T>(groups: Nested<T>, k: int)
    requires 0 <= k < |Flatten(groups)|
    ensures exists i | 0 <= i < |groups| :: groups[i].0 == Flatten(groups)[k].0
  {
    FlattenComesFrom(groups, Flatten(groups)[k]);
  }

  /** Walking strictly sorted groups with distinct keys visits entries in strictly increasing order. */
  lemma {:induction false} FlattenInOrder<T>(groups: Nested<T>)
    requires StrictlySortedBy(groups, KeyOf)
    requires forall i | 0 <= i < |groups| :: DistinctBy(groups[i].1, KeyOf)
    ensures InOrder(Flatten(groups))
  {
    if |groups| > 0 {
      var g := groups[0].0;
      var sortedKeys := Items(groups[0].1);
      SortByStrict(groups[0].1, KeyOf);
      var a := RowsOf(g, sortedKeys);
      var rest := groups[1..];
      var b := Flatten(rest);
      FlattenInOrder(rest);
      forall i, j | 0 <= i < |a| && 0 <= j < |b|
        ensures Before(a[i], b[j])
      {
        FlattenGroupNamed(rest, j);
        var m :| 0 <= m < |rest| && rest[m].0 == b[j].0;
        assert Less(KeyOf(groups[0]), KeyOf(groups[m + 1]));
      }
      var f := a + b;
      assert f == Flatten(groups);
      forall i, j | 0 <= i < j < |f|
        ensures Before(f[i], f[j])
      {
        if j < |a| {
          assert Less(KeyOf(sortedKeys[i]), KeyOf(sortedKeys[j]));
        } else if i >= |a| {
          assert Before(b[i - |a|], b[j - |a|]);
        } else {
          assert Before(a[i], b[j - |a|]);
        }
      }
    }
  }

  /**
   * The nested loop visits every entry of a dict-shaped configuration in
   * strictly increasing (group, key) order.
   */
  lemma WalkInOrder<T>(n: Nested<T>)
    requires WellFormed(n)
    ensures InOrder(Walk(n))
  {
    var groups := Items(n);
    SortByStrict(n, KeyOf);
    forall i | 0 <= i < |groups|
      ensures DistinctBy(groups[i].1, KeyOf)
    {
      assert groups[i] in multiset(n);
      var i' :| 0 <= i' < |n| && n[i'] == groups[i];
    }
    FlattenInOrder(groups);
  }
}

=== FILE: errors.dfy ===
/**
 * The failures the serving and training entry points can raise. In the
 * program every one of them reaches the client as an HTTP "bad request";
 * the constructor records which check or which exception it came from.
 */
module Errors {

  datatype Error =
    | EmptyQuery                        // an empty URL or file list
    | UrlConnection                     // the HEAD request for a URL raised
    | MissingContentType                // the HEAD reply has no content-type header
    | NotAnImage                        // the content type's primary part is not `image`
    | UnsupportedExtension              // a file extension outside the allow-list
    | NoModels                          // the models directory has no subdirectory
    | NoCheckpoints                     // the snapshot's checkpoint directory is empty
    | NoMatchingCheckpoint              // `[-1]` on an empty list of candidate checkpoints
    | MissingSnapshotFiles(timestamp: string) // a listed snapshot's files cannot be read
    | PredictionFailure                 // the network call raised
    | LabelOutOfRange(labelId: int)     // a label id that indexes past the class lists
    | MissingConfKey(key: string)       // a schema key absent from the user's overrides
    | UndecodableValue(key: string)     // an override that is not valid JSON
    | MalformedMetadataLine(line: string) // a PKG-INFO field line without ": "
}

=== FILE: json.dfy ===
/** Decoded JSON values, as `json.loads` returns them. Decoding itself is not modelled. */
module Json {
  datatype Value =
    | Null
    | Bool(b: bool)
    | Number(n: real)
    | Str(s: string)
    | Array(items: seq<Value>)
    | Object(fields: seq<(string, Value)>)
}

=== FILE: loading.dfy ===
/**
 * Choosing and loading the model used for inference (imgclas/api.py,
 * `load_inference_model`). The directory listings and the contents of
 * the files are inputs; the network weights themselves are not modelled.
 */
module Loading {
  import opened Wrappers
  import opened Errors
  import opened PyStr
  import opened PySeq
  import Json

  /** The snapshot directory that, when present, is always served. */
  const ApiSnapshot := "api"

  /** The checkpoint that, when present, is always loaded. */
  const FinalCheckpoint := "final_model.h5"

  /** The suffix the checkpoint fallback filters on, exactly as the program writes it. */
  const CheckpointSuffixAsWritten := "*.h5"

  /** The suffix the checkpoint fallback evidently means to filter on. */
  const CheckpointSuffixIntended := ".h5"

  function Identity(s: string): string { s }

  /**
   * Snapshot choice: `api` if listed, otherwise the greatest name in
   * code-point order (`sorted(timestamps)[-1]`).
   */
  function SelectSnapshot(timestamps: seq<string>): (r: Result<string, Error>)
    ensures |timestamps| == 0 <==> r.Failure?
    ensures r.Failure? ==> r.error == NoModels
    ensures ApiSnapshot in timestamps ==> r == Success(ApiSnapshot)
    ensures r.Success? ==> r.value in timestamps
    ensures r.Success? && ApiSnapshot !in timestamps ==>
      forall t | t in timestamps :: LessEq(t, r.value)
  {
    if |timestamps| == 0 then Failure(NoModels)
    else if ApiSnapshot in timestamps then Success(ApiSnapshot)
    else
      var sorted := SortBy(timestamps, Identity);
      SortByKeepsElements(timestamps, Identity);
      LastOfSortedIsGreatest(sorted, Identity);
      Success(sorted[|sorted| - 1])
  }

  /**
   * Without `api`, the chosen snapshot is THE greatest listed name: any
   * listed name that is at least every other listed name is the choice.
   */
  lemma SnapshotIsTheMaximum(timestamps: seq<string>, t: string)
    requires ApiSnapshot !in timestamps
    requires t in timestamps && forall u | u in timestamps :: LessEq(u, t)
    ensures SelectSnapshot(timestamps) == Success(t)
  {
    var v := SelectSnapshot(timestamps).value;
    LessEqAntisymmetric(v, t);
  }

  /** `[name for name in ckpts if name.endswith(suffix)]` */
  function Candidates(ckpts: seq<string>, suffix: string): (r: seq<string>)
    ensures forall n :: n in r <==> n in ckpts && EndsWith(n, suffix)
  {
    var r := Filter(ckpts, (n: string) => EndsWith(n, suffix));
    assert forall n | n in ckpts && EndsWith(n, suffix) :: n in r by {
      forall n | n in ckpts && EndsWith(n, suffix)
        ensures n in r
      {
        var i :| 0 <= i < |ckpts| && ckpts[i] == n;
      }
    }
    r
  }

  /** The last of the sorted candidates is a candidate and at least every other one. */
  lemma LastCandidateIsGreatest(ckpts: seq<string>, suffix: string)
    requires |SortBy(Candidates(ckpts, suffix), Identity)| > 0
    ensures var sorted := SortBy(Candidates(ckpts, suffix), Identity);
      var last := sorted[|sorted| - 1];
      && last in ckpts && EndsWith(last, suffix)
      && forall n | n in ckpts && EndsWith(n, suffix) :: LessEq(n, last)
  {
    var candidates := Candidates(ckpts, suffix);
    var sorted := SortBy(candidates, Identity);
    SortByKeepsElements(candidates, Identity);
    LastOfSortedIsGreatest(sorted, Identity);
    assert sorted[|sorted| - 1] in sorted;
  }

  /**
   * `sorted(candidates)[-1]`: the greatest name that passes the filter, or
   * the `IndexError` of an empty list.
   */
  function LatestCandidate(ckpts: seq<string>, suffix: string): (r: Result<string, Error>)
    ensures r.Success? <==> exists n :: n in ckpts && EndsWith(n, suffix)
    ensures r.Failure? ==> r.error == NoMatchingCheckpoint
    ensures r.Success? ==>
      && r.value in ckpts
      && EndsWith(r.value, suffix)
      && forall n | n in ckpts && EndsWith(n, suffix) :: LessEq(n, r.value)
  {
    var sorted := SortBy(Candidates(ckpts, suffix), Identity);
    if |sorted| == 0 then
      SortByKeepsElements(Candidates(ckpts, suffix), Identity);
      Failure(NoMatchingCheckpoint)
    else
      LastCandidateIsGreatest(ckpts, suffix);
      Success(sorted[|sorted| - 1])
  }

  /**
   * Checkpoint choice with the fallback filter `name.endswith(suffix)`:
   * `final_model.h5` if listed, otherwise `sorted(candidates)[-1]`, which
   * raises `IndexError` when no name passes the filter.
   */
  function SelectCheckpointWith(ckpts: seq<string>, suffix: string): (r: Result<string, Error>)
    ensures |ckpts| == 0 <==> r == Failure(NoCheckpoints)
    ensures FinalCheckpoint in ckpts ==> r == Success(FinalCheckpoint)
    ensures |ckpts| > 0 && FinalCheckpoint !in ckpts ==>
      (r.Success? <==> exists n :: n in ckpts && EndsWith(n, suffix))
    ensures r.Failure? ==> r.error == NoCheckpoints || r.error == NoMatchingCheckpoint
    ensures r.Success? && FinalCheckpoint !in ckpts ==>
      && r.value in ckpts
      && EndsWith(r.value, suffix)
      && forall n | n in ckpts && EndsWith(n, suffix) :: LessEq(n, r.value)
  {
    if |ckpts| == 0 then Failure(NoCheckpoints)
    else if FinalCheckpoint in ckpts then Success(FinalCheckpoint)
    else LatestCandidate(ckpts, suffix)
  }

  /** The checkpoint rule as the program writes it: the fallback keeps names ending in `*.h5`. */
  function SelectCheckpoint(ckpts: seq<string>): (r: Result<string, Error>)
    ensures |ckpts| == 0 <==> r == Failure(NoCheckpoints)
    ensures FinalCheckpoint in ckpts ==> r == Success(FinalCheckpoint)
    ensures |ckpts| > 0 && FinalCheckpoint !in ckpts ==>
      (r.Success? <==> exists n :: n in ckpts && EndsWith(n, CheckpointSuffixAsWritten))
    ensures r.Success? && FinalCheckpoint !in ckpts ==>
      && r.value in ckpts
      && EndsWith(r.value, CheckpointSuffixAsWritten)
      && forall n | n in ckpts && EndsWith(n, CheckpointSuffixAsWritten) :: LessEq(n, r.value)
  {
    SelectCheckpointWith(ckpts, CheckpointSuffixAsWritten)
  }

  /** The checkpoint rule with the fallback filter the program evidently means: names ending in `.h5`. */
  function SelectCheckpointIntended(ckpts: seq<string>): (r: Result<string, Error>)
    ensures |ckpts| == 0 <==> r == Failure(NoCheckpoints)
    ensures FinalCheckpoint in ckpts ==> r == Success(FinalCheckpoint)
    ensures |ckpts| > 0 && FinalCheckpoint !in ckpts ==>
      (r.Success? <==> exists n :: n in ckpts && EndsWith(n, CheckpointSuffixIntended))
    ensures r.Success? && FinalCheckpoint !in ckpts ==>
      && r.value in ckpts
      && EndsWith(r.value, CheckpointSuffixIntended)
      && forall n | n in ckpts && EndsWith(n, CheckpointSuffixIntended) :: LessEq(n, r.value)
  {
    SelectCheckpointWith(ckpts, CheckpointSuffixIntended)
  }

  /**
   * As written, a non-empty checkpoint list without `final_model.h5` whose
   * names contain no `*` (every ordinary file name) makes loading fail.
   */
  lemma {:induction false} OrdinaryCheckpointsAreNeverCandidates(ckpts: seq<string>)
    requires |ckpts| > 0 && FinalCheckpoint !in ckpts
    requires forall n | n in ckpts :: '*' !in n
    ensures SelectCheckpoint(ckpts) == Failure(NoMatchingCheckpoint)
  {
    forall n | n in ckpts
      ensures !EndsWith(n, CheckpointSuffixAsWritten)
    {
      if |n| >= 4 {
        assert n[|n| - 4..][0] != '*';
      }
    }
  }

  /** The counterexample: two epoch checkpoints and no final model. */
  lemma EpochCheckpointsFailAsWritten()
    ensures SelectCheckpoint(["epoch-01.h5", "epoch-09.h5"]) == Failure(NoMatchingCheckpoint)
  {
    OrdinaryCheckpointsAreNeverCandidates(["epoch-01.h5", "epoch-09.h5"]);
  }

  /** With the intended filter the same listing yields the latest epoch. */
  lemma EpochCheckpointsSelectLatestIntended()
    ensures SelectCheckpointIntended(["epoch-01.h5", "epoch-09.h5"]) == Success("epoch-09.h5")
  {
    var ckpts := ["epoch-01.h5", "epoch-09.h5"];
    assert EndsWith("epoch-09.h5", CheckpointSuffixIntended);
    var r := SelectCheckpointIntended(ckpts).value;
    assert r == "epoch-01.h5" || r == "epoch-09.h5";
    assert Less("epoch-01.h5", "epoch-09.h5");
    if r == "epoch-01.h5" {
      LessAsymmetric("epoch-01.h5", "epoch-09.h5");
    }
  }

  /**
   * The per-class metadata table: the parsed info file when it exists and
   * has one line per class, otherwise an empty string for every class.
   */
  datatype ClassIndex = ClassIndex(names: seq<string>, info: seq<string>) {
    ghost predicate Valid() {
      |names| == |info|
    }
  }

  function ResolveClassInfo(names: seq<string>, infoFile: Option<seq<string>>): (r: seq<string>)
    ensures |r| == |names|
    ensures infoFile.Some? && |infoFile.value| == |names| ==> r == infoFile.value
    ensures !(infoFile.Some? && |infoFile.value| == |names|) ==>
      forall i | 0 <= i < |r| :: r[i] == ""
  {
    match infoFile
    case Some(info) =>
      if |info| == |names| then info else Replicate("", |names|)
    case None => Replicate("", |names|)
  }

  /** The metadata is used whole or not at all: never a mix of file lines and blanks. */
  lemma ClassInfoAllOrNothing(names: seq<string>, infoFile: Option<seq<string>>)
    ensures var r := ResolveClassInfo(names, infoFile);
      (infoFile.Some? && r == infoFile.value) || forall i | 0 <= i < |r| :: r[i] == ""
  {
  }

  /** The files of a snapshot read after its checkpoint is chosen. */
  datatype SnapshotFiles = SnapshotFiles(
    classNames: seq<string>,         // lines of `splits/classes.txt`
    infoFile: Option<seq<string>>,   // lines of `splits/info.txt`, when listed
    conf: Json.Value)                // `config/conf.json`

  /**
   * A snapshot directory: the listing of `ckpts/`, and its other files,
   * `None` when `classes.txt` or `conf.json` cannot be read.
   */
  datatype SnapshotDir = SnapshotDir(checkpoints: seq<string>, files: Option<SnapshotFiles>)

  /**
   * The models directory: its subdirectory listing, and the snapshots whose
   * `ckpts/` folder can be listed.
   */
  datatype ModelsDir = ModelsDir(timestamps: seq<string>, snapshots: map<string, SnapshotDir>)

  /** What a successful load leaves behind for the prediction endpoints. */
  datatype InferenceState = InferenceState(
    timestamp: string,
    checkpoint: string,
    classes: ClassIndex,
    conf: Json.Value)

  /**
   * `load_inference_model`, step by step as the program raises: choose the
   * snapshot, list its `ckpts/` folder and choose the checkpoint, and only
   * then read the class names, the class info and the configuration.
   */
  function LoadInferenceModel(models: ModelsDir): (r: Result<InferenceState, Error>)
    ensures |models.timestamps| == 0 ==> r == Failure(NoModels)
    ensures SelectSnapshot(models.timestamps).Failure? ==> r == Failure(SelectSnapshot(models.timestamps).error)
    ensures SelectSnapshot(models.timestamps).Success? && SelectSnapshot(models.timestamps).value !in models.snapshots ==>
      r == Failure(MissingSnapshotFiles(SelectSnapshot(models.timestamps).value))
    ensures SelectSnapshot(models.timestamps).Success? && SelectSnapshot(models.timestamps).value in models.snapshots ==>
      var timestamp := SelectSnapshot(models.timestamps).value;
      var snap := models.snapshots[timestamp];
      && (SelectCheckpoint(snap.checkpoints).Failure? ==> r == Failure(SelectCheckpoint(snap.checkpoints).error))
      && (SelectCheckpoint(snap.checkpoints).Success? && snap.files.None? ==> r == Failure(MissingSnapshotFiles(timestamp)))
    ensures r.Success? ==> r.value.classes.Valid()
    ensures r.Success? ==>
      && SelectSnapshot(models.timestamps) == Success(r.value.timestamp)
      && r.value.timestamp in models.snapshots
      && var snap := models.snapshots[r.value.timestamp];
      && SelectCheckpoint(snap.checkpoints) == Success(r.value.checkpoint)
      && snap.files.Some?
      && r.value.classes.names == snap.files.value.classNames
      && r.value.classes.info == ResolveClassInfo(snap.files.value.classNames, snap.files.value.infoFile)
      && r.value.conf == snap.files.value.conf
    ensures r.Success? <==>
      && SelectSnapshot(models.timestamps).Success?
      && SelectSnapshot(models.timestamps).value in models.snapshots
      && SelectCheckpoint(models.snapshots[SelectSnapshot(models.timestamps).value].checkpoints).Success?
      && models.snapshots[SelectSnapshot(models.timestamps).value].files.Some?
  {
    match SelectSnapshot(models.timestamps)
    case Failure(e) => Failure(e)
    case Success(timestamp) =>
      if timestamp !in models.snapshots then Failure(MissingSnapshotFiles(timestamp))
      else
        var snap := models.snapshots[timestamp];
        match SelectCheckpoint(snap.checkpoints)
        case Failure(e) => Failure(e)
        case Success(checkpoint) =>
          match snap.files
          case None => Failure(MissingSnapshotFiles(timestamp))
          case Some(files) =>
            var info := ResolveClassInfo(files.classNames, files.infoFile);
            Success(InferenceState(timestamp, checkpoint, ClassIndex(files.classNames, info), files.conf))
  }

  /**
   * An empty `ckpts/` folder is reported as such even when the snapshot's
   * other files are missing: the listing is read first.
   */
  lemma EmptyCheckpointsReportedFirst(models: ModelsDir)
    requires SelectSnapshot(models.timestamps).Success?
    requires SelectSnapshot(models.timestamps).value in models.snapshots
    requires |models.snapshots[SelectSnapshot(models.timestamps).value].checkpoints| == 0
    ensures LoadInferenceModel(models) == Failure(NoCheckpoints)
  {
  }

  /** The state already loaded when there is one, and otherwise a fresh load. */
  function EnsureLoaded(loaded: Option<InferenceState>, models: ModelsDir): (r: Result<InferenceState, Error>)
    ensures loaded.Some? ==> r == Success(loaded.value)
    ensures loaded.None? ==> r == LoadInferenceModel(models)
  {
    match loaded
    case Some(state) => Success(state)
    case None => LoadInferenceModel(models)
  }

  /**
   * Once loaded, the state is reused whatever the disk now holds: a second
   * call reads nothing and returns the state of the first.
   */
  lemma EnsureLoadedIsIdempotent(loaded: Option<InferenceState>, models: ModelsDir, later: ModelsDir)
    requires EnsureLoaded(loaded, models).Success?
    ensures EnsureLoaded(Some(EnsureLoaded(loaded, models).value), later) == EnsureLoaded(loaded, models)
  {
  }
}

=== FILE: metadata.dfy ===
/**
 * Reading the package metadata in `get_metadata` (imgclas/api.py): each
 * PKG-INFO line is matched by PREFIX against the field names and its text
 * after the first ": " is stored. The environment-variable overlay is not
 * modelled.
 */
module Metadata {
  import opened Wrappers
  import opened Errors
  import opened PyStr

  /** The fields of the answer, in the dict's insertion order. */
  const Fields: seq<string> := ["Name", "Version", "Summary", "Home-page", "Author", "Author-email", "License"]

  const Separator := ": "

  type Meta = map<string, Option<string>>

  /** Every field present and still `None`. */
  function Initial(fields: seq<string>): (r: Meta)
    ensures forall f :: f in r <==> f in fields
    ensures forall f | f in r :: r[f] == None
  {
    map f | f in fields :: None
  }

  /** One of `fields` is a prefix of the line. */
  predicate MatchesAny(line: string, fields: seq<string>)
    decreases |fields|
  {
    |fields| > 0 && (StartsWith(line, fields[0]) || MatchesAny(line, fields[1..]))
  }

  /** The field-by-field test agrees with "some field is a prefix". */
  lemma {:induction false} MatchesAnyIffSomePrefix(line: string, fields: seq<string>)
    decreases |fields|
    ensures MatchesAny(line, fields) <==> exists i | 0 <= i < |fields| :: StartsWith(line, fields[i])
  {
    if |fields| > 0 {
      MatchesAnyIffSomePrefix(line, fields[1..]);
      if MatchesAny(line, fields[1..]) {
        var i :| 0 <= i < |fields| - 1 && StartsWith(line, fields[1..][i]);
        assert fields[i + 1] == fields[1..][i];
      }
      if exists i | 0 <= i < |fields| :: StartsWith(line, fields[i]) {
        var i :| 0 <= i < |fields| && StartsWith(line, fields[i]);
        if i > 0 {
          assert fields[1..][i - 1] == fields[i];
        }
      }
    }
  }

  /** A line the parse accepts: it matches no field, or it holds a separator. */
  predicate LineOk(line: string, fields: seq<string>) {
    !MatchesAny(line, fields) || SplitOnce(line, Separator).Some?
  }

  /** `line.split(": ", 1)[1]`; a line without separator never gets this far. */
  function ValueOf(line: string): string {
    match SplitOnce(line, Separator)
    case Some((_, v)) => v
    case None => ""
  }

  /**
   * The inner loop over the fields for one line: every field that is a
   * prefix of the line receives the line's value; the first match on a
   * line without separator raises.
   */
  function ApplyLine(meta: Meta, line: string, fields: seq<string>): (r: Result<Meta, Error>)
    requires forall i | 0 <= i < |fields| :: fields[i] in meta
    decreases |fields|
    ensures r.Success? <==> (forall i | 0 <= i < |fields| :: !StartsWith(line, fields[i])) || SplitOnce(line, Separator).Some?
    ensures r.Failure? ==> r.error == MalformedMetadataLine(line)
    ensures r.Success? ==> r.value.Keys == meta.Keys
    ensures r.Success? ==> forall f | f in r.value ::
      r.value[f] == if f in fields && StartsWith(line, f) then Some(ValueOf(line)) else meta[f]
  {
    if |fields| == 0 then Success(meta)
    else
      assert forall i | 1 <= i < |fields| :: fields[i] == fields[1..][i - 1];
      assert fields == [fields[0]] + fields[1..];
      if StartsWith(line, fields[0]) then
        match SplitOnce(line, Separator)
        case None => Failure(MalformedMetadataLine(line))
        case Some((_, v)) => ApplyLine(meta[fields[0] := Some(v)], line, fields[1..])
      else ApplyLine(meta, line, fields[1..])
  }

  /** The position of the last line that starts with `f`. */
  function LastMatch(lines: seq<string>, f: string): (r: Option<nat>)
    ensures r.None? <==> forall i | 0 <= i < |lines| :: !StartsWith(lines[i], f)
    ensures r.Some? ==> r.value < |lines| && StartsWith(lines[r.value], f)
    ensures r.Some? ==> forall j | r.value < j < |lines| :: !StartsWith(lines[j], f)
  {
    if |lines| == 0 then None
    else if StartsWith(lines[|lines| - 1], f) then Some(|lines| - 1)
    else
      var init := lines[..|lines| - 1];
      assert forall i | 0 <= i < |init| :: init[i] == lines[i];
      LastMatch(init, f)
  }

  /** The value the last line starting with `f` carries, or `None` when no line starts with `f`. */
  function Latest(lines: seq<string>, f: string): Option<string> {
    match LastMatch(lines, f)
    case None => None
    case Some(i) => Some(ValueOf(lines[i]))
  }

  /** The last line decides when it starts with `f`; otherwise the earlier lines do. */
  lemma LatestLast(lines: seq<string>, f: string)
    requires |lines| > 0
    ensures Latest(lines, f) ==
      if StartsWith(lines[|lines| - 1], f) then Some(ValueOf(lines[|lines| - 1])) else Latest(lines[..|lines| - 1], f)
  {
    var init := lines[..|lines| - 1];
    if !StartsWith(lines[|lines| - 1], f) {
      match LastMatch(init, f)
      case None =>
      case Some(i) => assert lines[i] == init[i];
    }
  }

  /** Adding one line to the fold updates exactly the fields the line starts with. */
  lemma ApplyLastLine(meta: Meta, lines: seq<string>, fields: seq<string>)
    requires |lines| > 0
    requires forall f :: f in meta <==> f in fields
    requires forall f | f in fields :: meta[f] == Latest(lines[..|lines| - 1], f)
    requires ApplyLine(meta, lines[|lines| - 1], fields).Success?
    ensures forall f :: f in ApplyLine(meta, lines[|lines| - 1], fields).value <==> f in fields
    ensures forall f | f in fields :: ApplyLine(meta, lines[|lines| - 1], fields).value[f] == Latest(lines, f)
  {
    var r := ApplyLine(meta, lines[|lines| - 1], fields).value;
    forall f | f in fields
      ensures r[f] == Latest(lines, f)
    {
      LatestLast(lines, f);
    }
  }

  lemma LineOkIffApplies(meta: Meta, line: string, fields: seq<string>)
    requires forall f | f in fields :: f in meta
    ensures LineOk(line, fields) <==> ApplyLine(meta, line, fields).Success?
  {
    MatchesAnyIffSomePrefix(line, fields);
  }

  /**
   * The loop of `get_metadata` for a list of field names, without the
   * environment overlay: the lines are read in order and folded into the
   * dict; the first matching line without ": " raises.
   */
  function Parse(lines: seq<string>, fields: seq<string>): (r: Result<Meta, Error>)
    ensures r.Success? ==> forall f :: f in r.value <==> f in fields
  {
    if |lines| == 0 then
      Success(Initial(fields))
    else
      match Parse(lines[..|lines| - 1], fields)
      case Failure(e) => Failure(e)
      case Success(meta) => ApplyLine(meta, lines[|lines| - 1], fields)
  }

  /** Every line is acceptable exactly when every earlier line and the last one are. */
  lemma AllOkSnoc(lines: seq<string>, init: seq<string>, fields: seq<string>)
    requires |lines| > 0 && init == lines[..|lines| - 1]
    ensures (forall i | 0 <= i < |lines| :: LineOk(lines[i], fields))
      <==> (forall i | 0 <= i < |init| :: LineOk(init[i], fields)) && LineOk(lines[|lines| - 1], fields)
  {
    if forall i | 0 <= i < |lines| :: LineOk(lines[i], fields) {
      forall i | 0 <= i < |init|
        ensures LineOk(init[i], fields)
      {
        assert init[i] == lines[i];
      }
    }
    if (forall i | 0 <= i < |init| :: LineOk(init[i], fields)) && LineOk(lines[|lines| - 1], fields) {
      forall i | 0 <= i < |lines|
        ensures LineOk(lines[i], fields)
      {
        if i < |init| {
          assert lines[i] == init[i];
        }
      }
    }
  }

  /** The parse succeeds exactly when every line is acceptable. */
  lemma {:induction false} ParseSucceedsIffLinesOk(lines: seq<string>, fields: seq<string>)
    ensures Parse(lines, fields).Success? <==> forall i | 0 <= i < |lines| :: LineOk(lines[i], fields)
  {
    if |lines| > 0 {
      var init := lines[..|lines| - 1];
      var last := lines[|lines| - 1];
      ParseSucceedsIffLinesOk(init, fields);
      AllOkSnoc(lines, init, fields);
      if Parse(init, fields).Success? {
        LineOkIffApplies(Parse(init, fields).value, last, fields);
      }
    }
  }

  /** A failing parse reports the first line it cannot accept. */
  lemma {:induction false} ParseFailsAtFirstBadLine(lines: seq<string>, fields: seq<string>)
    requires Parse(lines, fields).Failure?
    ensures exists i | 0 <= i < |lines| ::
      && !LineOk(lines[i], fields)
      && Parse(lines, fields).error == MalformedMetadataLine(lines[i])
      && forall j | 0 <= j < i :: LineOk(lines[j], fields)
  {
    var init := lines[..|lines| - 1];
    if Parse(init, fields).Failure? {
      ParseFailsAtFirstBadLine(init, fields);
      FailureCarriesOver(lines, fields);
    } else {
      ParseFailsAtLastLine(lines, fields);
    }
  }

  /** A failure among the earlier lines is the failure of the whole parse. */
  lemma FailureCarriesOver(lines: seq<string>, fields: seq<string>)
    requires |lines| > 0
    requires Parse(lines[..|lines| - 1], fields).Failure?
    requires var init := lines[..|lines| - 1];
      exists i | 0 <= i < |init| ::
        && !LineOk(init[i], fields)
        && Parse(init, fields).error == MalformedMetadataLine(init[i])
        && forall j | 0 <= j < i :: LineOk(init[j], fields)
    ensures exists i | 0 <= i < |lines| ::
      && !LineOk(lines[i], fields)
      && Parse(lines, fields).error == MalformedMetadataLine(lines[i])
      && forall j | 0 <= j < i :: LineOk(lines[j], fields)
  {
    var init := lines[..|lines| - 1];
    assert Parse(lines, fields) == Parse(init, fields);
    var i :| 0 <= i < |init| && !LineOk(init[i], fields) && Parse(init, fields).error == MalformedMetadataLine(init[i])
      && forall j | 0 <= j < i :: LineOk(init[j], fields);
    assert lines[i] == init[i];
    forall j | 0 <= j < i
      ensures LineOk(lines[j], fields)
    {
      assert lines[j] == init[j];
    }
  }

  /** When the earlier lines parse, the failure is the last line's. */
  lemma ParseFailsAtLastLine(lines: seq<string>, fields: seq<string>)
    requires |lines| > 0 && Parse(lines, fields).Failure?
    requires Parse(lines[..|lines| - 1], fields).Success?
    ensures !LineOk(lines[|lines| - 1], fields)
    ensures Parse(lines, fields).error == MalformedMetadataLine(lines[|lines| - 1])
    ensures forall j | 0 <= j < |lines| - 1 :: LineOk(lines[j], fields)
  {
    var init := lines[..|lines| - 1];
    var last := lines[|lines| - 1];
    ParseUnfold(lines, fields);
    LineOkIffApplies(Parse(init, fields).value, last, fields);
    ParseSucceedsIffLinesOk(init, fields);
    forall j | 0 <= j < |init|
      ensures LineOk(lines[j], fields)
    {
      assert lines[j] == init[j];
    }
  }

  /** A parse that succeeds has succeeded on every line before the last. */
  lemma ParsePrefixSucceeds(lines: seq<string>, fields: seq<string>)
    requires |lines| > 0 && Parse(lines, fields).Success?
    ensures Parse(lines[..|lines| - 1], fields).Success?
  {
  }

  /** A successful parse is the previous lines' dict with the last line applied. */
  lemma ParseUnfold(lines: seq<string>, fields: seq<string>)
    requires |lines| > 0 && Parse(lines[..|lines| - 1], fields).Success?
    ensures Parse(lines, fields) == ApplyLine(Parse(lines[..|lines| - 1], fields).value, lines[|lines| - 1], fields)
  {
  }

  /** One more line keeps every field at the value of its last matching line. */
  lemma ParseStepKeepsLatest(lines: seq<string>, fields: seq<string>)
    requires |lines| > 0 && Parse(lines, fields).Success?
    requires Parse(lines[..|lines| - 1], fields).Success?
    requires forall f | f in fields :: Parse(lines[..|lines| - 1], fields).value[f] == Latest(lines[..|lines| - 1], f)
    ensures forall f | f in fields :: Parse(lines, fields).value[f] == Latest(lines, f)
  {
    ParseUnfold(lines, fields);
    ApplyLastLine(Parse(lines[..|lines| - 1], fields).value, lines, fields);
  }

  /** For every field, the last line starting with the field's name decides its value. */
  lemma {:induction false} ParsePkgInfoKeepsLatest(lines: seq<string>, fields: seq<string>)
    requires Parse(lines, fields).Success?
    ensures forall f | f in fields :: Parse(lines, fields).value[f] == Latest(lines, f)
  {
    if |lines| > 0 {
      ParsePrefixSucceeds(lines, fields);
      ParsePkgInfoKeepsLatest(lines[..|lines| - 1], fields);
      ParseStepKeepsLatest(lines, fields);
    }
  }

  /** `a + ": " + b` splits into `a` and `b` when `a` has no colon. */
  lemma SplitAtFirstSeparator(a: string, b: string)
    requires ':' !in a
    ensures SplitOnce(a + Separator + b, Separator) == Some((a, b))
  {
    SplitAfterPlainHead(a, Separator, b);
  }

  /** An `Author-email` line starts with both field names and carries the address. */
  lemma AuthorEmailLine(email: string)
    ensures StartsWith("Author-email: " + email, "Author")
    ensures StartsWith("Author-email: " + email, "Author-email")
    ensures ValueOf("Author-email: " + email) == email
  {
    var line := "Author-email: " + email;
    assert line == "Author-email" + Separator + email;
    SplitAtFirstSeparator("Author-email", email);
    assert line[..6] == "Author";
    assert line[..12] == "Author-email";
  }

  /**
   * Prefix matching: an `Author-email` line is also an `Author` line, so
   * when it comes last both fields hold the e-mail address.
   */
  lemma LastEmailLineSetsBoth(lines: seq<string>, email: string, fields: seq<string>)
    requires "Author" in fields && "Author-email" in fields
    requires Parse(lines + ["Author-email: " + email], fields).Success?
    ensures var m := Parse(lines + ["Author-email: " + email], fields).value;
      && "Author" in m && m["Author"] == Some(email)
      && "Author-email" in m && m["Author-email"] == Some(email)
  {
    var line := "Author-email: " + email;
    var all := lines + [line];
    var m := Parse(all, fields).value;
    assert m["Author"] == Latest(all, "Author") && m["Author-email"] == Latest(all, "Author-email") by {
      ParsePkgInfoKeepsLatest(all, fields);
    }
    assert Latest(all, "Author") == Some(email) && Latest(all, "Author-email") == Some(email) by {
      AuthorEmailLine(email);
      assert all[|all| - 1] == line;
      LatestLast(all, "Author");
      LatestLast(all, "Author-email");
    }
  }

  /**
   * `get_metadata`'s PKG-INFO reading, over the seven fields it asks for:
   * it succeeds exactly when every line is acceptable.
   */
  function ParsePkgInfo(lines: seq<string>): (r: Result<Meta, Error>)
    ensures r.Success? <==> forall i | 0 <= i < |lines| :: LineOk(lines[i], Fields)
    ensures r.Success? ==> forall f :: f in r.value <==> f in Fields
  {
    ParseSucceedsIffLinesOk(lines, Fields);
    Parse(lines, Fields)
  }

  /** With the real field list, a trailing `Author-email` line overwrites `Author` too. */
  lemma AuthorEmailOverwritesAuthor(lines: seq<string>, email: string)
    requires ParsePkgInfo(lines + ["Author-email: " + email]).Success?
    ensures var m := ParsePkgInfo(lines + ["Author-email: " + email]).value;
      && "Author" in m && m["Author"] == Some(email)
      && "Author-email" in m && m["Author-email"] == Some(email)
  {
    assert Fields[4] == "Author" && Fields[5] == "Author-email";
    LastEmailLineSetsBoth(lines, email, Fields);
  }
}

=== FILE: prediction.dfy ===
/**
 * The prediction endpoints (imgclas/api.py, `predict_url`, `predict_data`)
 * and the formatting of their answer (`format_prediction`,
 * `wikipedia_link`, `image_link`). The network's ranked labels and
 * probabilities are an input: the inference itself is not modelled.
 */
module Prediction {
  import opened Wrappers
  import opened Errors
  import opened PyStr
  import opened PySeq
  import opened Loading
  import opened Validators

  const WikipediaBase := "https://en.wikipedia.org/wiki/"
  const GoogleImagesBase := "https://www.google.es/search?"

  /** `wikipedia_link`: the base path followed by the name with every space turned into `_`. */
  function WikipediaLink(name: string): (r: string)
    ensures StartsWith(r, WikipediaBase)
    ensures |r| == |WikipediaBase| + |name|
    ensures forall i | 0 <= i < |name| ::
      r[|WikipediaBase| + i] == if name[i] == ' ' then '_' else name[i]
  {
    WikipediaBase + ReplaceChar(name, ' ', '_')
  }

  /** The article title in a Wikipedia link never contains a space. */
  lemma WikipediaTitleHasNoSpace(name: string)
    ensures ' ' !in WikipediaLink(name)[|WikipediaBase|..]
  {
    var title := WikipediaLink(name)[|WikipediaBase|..];
    forall i | 0 <= i < |title|
      ensures title[i] != ' '
    {
      assert title[i] == WikipediaLink(name)[|WikipediaBase| + i];
    }
  }

  /**
   * `image_link`: `urlencode({'tbm': 'isch', 'q': name})` appended to the
   * search base; `quote` stands for the library's `quote_plus`.
   */
  function ImageLink(name: string, quote: string -> string): (r: string)
    ensures StartsWith(r, GoogleImagesBase + "tbm=isch&q=")
    ensures EndsWith(r, quote(name))
    ensures |r| == |GoogleImagesBase + "tbm=isch&q="| + |quote(name)|
  {
    GoogleImagesBase + "tbm=isch&q=" + quote(name)
  }

  datatype Prediction = Prediction(
    labelId: int,
    name: string,
    probability: real,
    googleImages: string,
    wikipedia: string,
    metadata: string)

  datatype Response = Response(status: string, predictions: seq<Prediction>)

  /** Both `class_names[label_id]` and `class_info[label_id]` succeed. */
  predicate Known(classes: ClassIndex, labelId: int) {
    PyIndex(classes.names, labelId).Some? && PyIndex(classes.info, labelId).Some?
  }

  /** One entry of the answer; looking up an unknown label raises. */
  function Entry(classes: ClassIndex, labelId: int, probability: real, quote: string -> string)
    : (r: Result<Prediction, Error>)
    ensures r.Success? <==> Known(classes, labelId)
    ensures r.Failure? ==> r.error == LabelOutOfRange(labelId)
    ensures r.Success? ==>
      && r.value.labelId == labelId
      && r.value.name == PyIndex(classes.names, labelId).value
      && r.value.probability == probability
      && r.value.googleImages == ImageLink(r.value.name, quote)
      && r.value.wikipedia == WikipediaLink(r.value.name)
      && r.value.metadata == PyIndex(classes.info, labelId).value
  {
    if !Known(classes, labelId) then Failure(LabelOutOfRange(labelId))
    else
      var name := PyIndex(classes.names, labelId).value;
      Success(Prediction(labelId, name, probability, ImageLink(name, quote), WikipediaLink(name),
                         PyIndex(classes.info, labelId).value))
  }

  /** The entries for `zip(labels, probabilities)`, in order; the first unknown label raises. */
  function Entries(classes: ClassIndex, labels: seq<int>, probs: seq<real>, quote: string -> string)
    : (r: Result<seq<Prediction>, Error>)
    ensures r.Success? <==> forall i | 0 <= i < Min(|labels|, |probs|) :: Known(classes, labels[i])
    ensures r.Success? ==> |r.value| == Min(|labels|, |probs|)
    ensures r.Success? ==> forall i | 0 <= i < |r.value| ::
      && r.value[i].labelId == labels[i]
      && r.value[i].name == PyIndex(classes.names, labels[i]).value
      && r.value[i].probability == probs[i]
      && r.value[i].googleImages == ImageLink(r.value[i].name, quote)
      && r.value[i].wikipedia == WikipediaLink(r.value[i].name)
      && r.value[i].metadata == PyIndex(classes.info, labels[i]).value
    ensures r.Failure? ==> exists i | 0 <= i < Min(|labels|, |probs|) ::
      && !Known(classes, labels[i])
      && r.error == LabelOutOfRange(labels[i])
      && forall j | 0 <= j < i :: Known(classes, labels[j])
  {
    var pairs := Zip(labels, probs);
    var f := (p: (int, real)) => Entry(classes, p.0, p.1, quote);
    var r := MapInOrder(pairs, f);
    assert forall i | 0 <= i < |pairs| :: f(pairs[i]) == Entry(classes, labels[i], probs[i], quote);
    r
  }

  /** `format_prediction`: status `ok` and one entry per (label, probability) pair. */
  function FormatPrediction(classes: ClassIndex, labels: seq<int>, probs: seq<real>, quote: string -> string)
    : (r: Result<Response, Error>)
    ensures r.Success? <==> forall i | 0 <= i < Min(|labels|, |probs|) :: Known(classes, labels[i])
    ensures r.Success? ==> r.value.status == "ok" && |r.value.predictions| == Min(|labels|, |probs|)
    ensures r.Success? ==> forall i | 0 <= i < |r.value.predictions| ::
      var p := r.value.predictions[i];
      && p.labelId == labels[i]
      && p.name == PyIndex(classes.names, labels[i]).value
      && p.probability == probs[i]
      && p.googleImages == ImageLink(p.name, quote)
      && p.wikipedia == WikipediaLink(p.name)
      && p.metadata == PyIndex(classes.info, labels[i]).value
    ensures r.Failure? ==> exists i | 0 <= i < Min(|labels|, |probs|) ::
      && !Known(classes, labels[i])
      && r.error == LabelOutOfRange(labels[i])
      && forall j | 0 <= j < i :: Known(classes, labels[j])
  {
    match Entries(classes, labels, probs, quote)
    case Failure(e) => Failure(e)
    case Success(preds) => Success(Response("ok", preds))
  }

  /**
   * With a loaded class index every label that names a class also has
   * metadata: only the class-name lookup can fail.
   */
  lemma KnownIffNamed(classes: ClassIndex, labelId: int)
    requires classes.Valid()
    ensures Known(classes, labelId) <==> -|classes.names| <= labelId < |classes.names|
  {
  }

  /**
   * When the snapshot's info file is missing or has the wrong number of
   * lines, every prediction carries empty metadata.
   */
  lemma MismatchedInfoGivesEmptyMetadata(models: ModelsDir, labels: seq<int>, probs: seq<real>, quote: string -> string)
    requires LoadInferenceModel(models).Success?
    requires var snap := models.snapshots[LoadInferenceModel(models).value.timestamp];
      snap.files.Some? && (snap.files.value.infoFile.None? || |snap.files.value.infoFile.value| != |snap.files.value.classNames|)
    requires FormatPrediction(LoadInferenceModel(models).value.classes, labels, probs, quote).Success?
    ensures var preds := FormatPrediction(LoadInferenceModel(models).value.classes, labels, probs, quote).value.predictions;
      forall i | 0 <= i < |preds| :: preds[i].metadata == ""
  {
    var classes := LoadInferenceModel(models).value.classes;
    var preds := FormatPrediction(classes, labels, probs, quote).value.predictions;
    forall i | 0 <= i < |preds|
      ensures preds[i].metadata == ""
    {
      var k := if labels[i] >= 0 then labels[i] else |classes.info| + labels[i];
      assert preds[i].metadata == classes.info[k];
    }
  }

  /** What an endpoint returns, and the inference state it leaves behind. */
  datatype Served = Served(state: Option<InferenceState>, response: Result<Response, Error>)

  /**
   * The shared body of both endpoints: the request check first, then the
   * load if nothing is loaded yet, then the network call (`ranking`, `None`
   * when it raised), then formatting.
   */
  function Serve(check: Outcome<Error>, loaded: Option<InferenceState>, models: ModelsDir,
                 ranking: Option<(seq<int>, seq<real>)>, quote: string -> string): (r: Served)
    ensures check.Fail? ==> r == Served(loaded, Failure(check.error))
    ensures check.Pass? ==>
      r.state == (if EnsureLoaded(loaded, models).Success? then Some(EnsureLoaded(loaded, models).value) else loaded)
    ensures check.Pass? && EnsureLoaded(loaded, models).Failure? ==>
      r.response == Failure(EnsureLoaded(loaded, models).error)
    ensures check.Pass? && EnsureLoaded(loaded, models).Success? && ranking.None? ==>
      r.response == Failure(PredictionFailure)
    ensures check.Pass? && EnsureLoaded(loaded, models).Success? && ranking.Some? ==>
      r.response == FormatPrediction(EnsureLoaded(loaded, models).value.classes, ranking.value.0, ranking.value.1, quote)
    ensures loaded.Some? ==> r.state == loaded
    ensures r.state.Some? ==> r.state.value.classes.Valid() || r.state == loaded
  {
    match check
    case Fail(e) => Served(loaded, Failure(e))
    case Pass =>
      match EnsureLoaded(loaded, models)
      case Failure(e) => Served(loaded, Failure(e))
      case Success(state) =>
        match ranking
        case None => Served(Some(state), Failure(PredictionFailure))
        case Some((labels, probs)) => Served(Some(state), FormatPrediction(state.classes, labels, probs, quote))
  }

  /**
   * `predict_url`: the URLs are validated before anything is loaded; a
   * valid request is answered like any other by `Serve`.
   */
  function PredictUrl(urls: seq<string>, head: string -> HeadReply, loaded: Option<InferenceState>,
                      models: ModelsDir, ranking: Option<(seq<int>, seq<real>)>, quote: string -> string)
    : (r: Served)
    ensures |urls| == 0 ==> r == Served(loaded, Failure(EmptyQuery))
    ensures ValidateUrls(urls, head).Fail? ==> r == Served(loaded, Failure(ValidateUrls(urls, head).error))
    ensures ValidateUrls(urls, head).Pass? && EnsureLoaded(loaded, models).Success? ==>
      r.state == Some(EnsureLoaded(loaded, models).value)
    ensures ValidateUrls(urls, head).Pass? && EnsureLoaded(loaded, models).Failure? ==>
      r == Served(loaded, Failure(EnsureLoaded(loaded, models).error))
    ensures ValidateUrls(urls, head).Pass? && EnsureLoaded(loaded, models).Success? && ranking.None? ==>
      r.response == Failure(PredictionFailure)
    ensures ValidateUrls(urls, head).Pass? && EnsureLoaded(loaded, models).Success? && ranking.Some? ==>
      r.response == FormatPrediction(EnsureLoaded(loaded, models).value.classes, ranking.value.0, ranking.value.1, quote)
    ensures r.response.Success? ==> ValidateUrls(urls, head).Pass? && r.response.value.status == "ok"
  {
    Serve(ValidateUrls(urls, head), loaded, models, ranking, quote)
  }

  /**
   * `predict_data`: the file names are validated before anything is
   * loaded; a valid request is answered like any other by `Serve`.
   */
  function PredictData(filenames: seq<string>, loaded: Option<InferenceState>, models: ModelsDir,
                       ranking: Option<(seq<int>, seq<real>)>, quote: string -> string): (r: Served)
    ensures |filenames| == 0 ==> r == Served(loaded, Failure(EmptyQuery))
    ensures |filenames| > 0 && ValidateFiles(filenames).Fail? ==> r == Served(loaded, Failure(UnsupportedExtension))
    ensures ValidateFiles(filenames).Pass? && EnsureLoaded(loaded, models).Success? ==>
      r.state == Some(EnsureLoaded(loaded, models).value)
    ensures ValidateFiles(filenames).Pass? && EnsureLoaded(loaded, models).Failure? ==>
      r == Served(loaded, Failure(EnsureLoaded(loaded, models).error))
    ensures ValidateFiles(filenames).Pass? && EnsureLoaded(loaded, models).Success? && ranking.None? ==>
      r.response == Failure(PredictionFailure)
    ensures ValidateFiles(filenames).Pass? && EnsureLoaded(loaded, models).Success? && ranking.Some? ==>
      r.response == FormatPrediction(EnsureLoaded(loaded, models).value.classes, ranking.value.0, ranking.value.1, quote)
    ensures r.response.Success? ==> ValidateFiles(filenames).Pass? && r.response.value.status == "ok"
  {
    Serve(ValidateFiles(filenames), loaded, models, ranking, quote)
  }
}

=== FILE: pyseq.dfy ===
/**
 * The list operations the program uses: `sorted(xs, key=...)`, list
 * comprehension filters, and indexing with Python's negative indices.
 */
module PySeq {
  import opened Wrappers
  import opened PyStr

  /** Non-decreasing in the key's code-point order. */
  ghost predicate SortedBy<T>(xs: seq<T>, key: T -> string) {
    forall i, j | 0 <= i < j < |xs| :: LessEq(key(xs[i]), key(xs[j]))
  }

  /** Strictly increasing in the key's code-point order. */
  ghost predicate StrictlySortedBy<T>(xs: seq<T>, key: T -> string) {
    forall i, j | 0 <= i < j < |xs| :: Less(key(xs[i]), key(xs[j]))
  }

  /** No two elements share a key (the keys of a Python dict). */
  ghost predicate DistinctBy<T>(xs: seq<T>, key: T -> string) {
    forall i, j | 0 <= i < j < |xs| :: key(xs[i]) != key(xs[j])
  }

  /** A key at most the first of a sorted sequence is at most all of it. */
  lemma BelowSorted<T>(k: string, xs: seq<T>, key: T -> string)
    requires SortedBy(xs, key) && |xs| > 0 && LessEq(k, key(xs[0]))
    ensures forall j | 0 <= j < |xs| :: LessEq(k, key(xs[j]))
  {
    forall j | 0 <= j < |xs|
      ensures LessEq(k, key(xs[j]))
    {
      LessEqTransitive(k, key(xs[0]), key(xs[j]));
    }
  }

  /** A property of `x` and of every element of `tail` holds of every element of a permutation of both. */
  lemma AllOfPermutation<T>(rest: seq<T>, tail: seq<T>, x: T, ok: T -> bool)
    requires multiset(rest) == multiset(tail) + multiset{x}
    requires ok(x)
    requires forall j | 0 <= j < |tail| :: ok(tail[j])
    ensures forall j | 0 <= j < |rest| :: ok(rest[j])
  {
    forall j | 0 <= j < |rest|
      ensures ok(rest[j])
    {
      assert rest[j] in multiset(rest);
      if rest[j] != x {
        assert rest[j] in multiset(tail);
        var m :| 0 <= m < |tail| && tail[m] == rest[j];
      }
    }
  }

  /** An element below every element of a strictly sorted sequence can go in front of it. */
  lemma ConsStrict<T>(y: T, ys: seq<T>, key: T -> string)
    requires StrictlySortedBy(ys, key)
    requires forall j | 0 <= j < |ys| :: Less(key(y), key(ys[j]))
    ensures StrictlySortedBy([y] + ys, key)
  {
    var r := [y] + ys;
    forall i, j | 0 <= i < j < |r|
      ensures Less(key(r[i]), key(r[j]))
    {
      assert r[j] == ys[j - 1];
      if i > 0 {
        assert r[i] == ys[i - 1];
      }
    }
  }

  /** An element at most every element of a sorted sequence can go in front of it. */
  lemma ConsSorted<T>(y: T, ys: seq<T>, key: T -> string)
    requires SortedBy(ys, key)
    requires forall j | 0 <= j < |ys| :: LessEq(key(y), key(ys[j]))
    ensures SortedBy([y] + ys, key)
  {
    var r := [y] + ys;
    forall i, j | 0 <= i < j < |r|
      ensures LessEq(key(r[i]), key(r[j]))
    {
      assert r[j] == ys[j - 1];
      if i > 0 {
        assert r[i] == ys[i - 1];
      }
    }
  }

  /** The step of `Insert` past a smaller head: the head stays in front of the insertion into the tail. */
  lemma InsertPastHead<T>(x: T, xs: seq<T>, rest: seq<T>, key: T -> string)
    requires SortedBy(xs, key) && |xs| > 0 && !LessEq(key(x), key(xs[0]))
    requires SortedBy(rest, key) && multiset(rest) == multiset(xs[1..]) + multiset{x}
    ensures SortedBy([xs[0]] + rest, key)
    ensures multiset([xs[0]] + rest) == multiset(xs) + multiset{x}
  {
    var tail := xs[1..];
    LessTotal(key(x), key(xs[0]));
    assert xs == [xs[0]] + tail;
    assert forall j | 0 <= j < |tail| :: tail[j] == xs[j + 1];
    var ok := (y: T) => LessEq(key(xs[0]), key(y));
    AllOfPermutation(rest, tail, x, ok);
    ConsSorted(xs[0], rest, key);
  }

  function Insert<T>(x: T, xs: seq<T>, key: T -> string): (r: seq<T>)
    requires SortedBy(xs, key)
    ensures SortedBy(r, key)
    ensures multiset(r) == multiset(xs) + multiset{x}
  {
    if |xs| == 0 then [x]
    else if LessEq(key(x), key(xs[0])) then
      BelowSorted(key(x), xs, key);
      ConsSorted(x, xs, key);
      [x] + xs
    else
      var rest := Insert(x, xs[1..], key);
      InsertPastHead(x, xs, rest, key);
      [xs[0]] + rest
  }

  /** `sorted(xs, key=key)`: an insertion sort, stable like Python's. */
  function SortBy<T>(xs: seq<T>, key: T -> string): (r: seq<T>)
    ensures SortedBy(r, key)
    ensures multiset(r) == multiset(xs)
  {
    if |xs| == 0 then []
    else
      assert xs == [xs[0]] + xs[1..];
      Insert(xs[0], SortBy(xs[1..], key), key)
  }

  /** Sorting keeps the elements, so it keeps their count and membership. */
  lemma SortByKeepsElements<T>(xs: seq<T>, key: T -> string)
    ensures |SortBy(xs, key)| == |xs|
    ensures forall x :: x in SortBy(xs, key) <==> x in xs
  {
    var r := SortBy(xs, key);
    assert |multiset(r)| == |multiset(xs)|;
    forall x
      ensures x in r <==> x in xs
    {
      assert x in r <==> x in multiset(r);
      assert x in xs <==> x in multiset(xs);
    }
  }

  /** The last element of a sorted list is at least every element of it. */
  lemma LastOfSortedIsGreatest<T>(xs: seq<T>, key: T -> string)
    requires |xs| > 0 && SortedBy(xs, key)
    ensures forall x | x in xs :: LessEq(key(x), key(xs[|xs| - 1]))
  {
    forall x | x in xs
      ensures LessEq(key(x), key(xs[|xs| - 1]))
    {
      var i :| 0 <= i < |xs| && xs[i] == x;
      if i < |xs| - 1 {
        assert LessEq(key(xs[i]), key(xs[|xs| - 1]));
      }
    }
  }

  /** Inserting a key not yet present into a strictly sorted list keeps it strictly sorted. */
  lemma {:induction false} InsertStrict<T>(x: T, xs: seq<T>, key: T -> string)
    requires StrictlySortedBy(xs, key)
    requires forall i | 0 <= i < |xs| :: key(xs[i]) != key(x)
    ensures StrictlySortedBy(Insert(x, xs, key), key)
  {
    if |xs| > 0 && !LessEq(key(x), key(xs[0])) {
      var tail := xs[1..];
      var rest := Insert(x, tail, key);
      assert forall j | 0 <= j < |tail| :: tail[j] == xs[j + 1];
      InsertStrict(x, tail, key);
      assert Insert(x, xs, key) == [xs[0]] + rest;
      LessTotal(key(x), key(xs[0]));
      var ok := (y: T) => Less(key(xs[0]), key(y));
      AllOfPermutation(rest, tail, x, ok);
      ConsStrict(xs[0], rest, key);
    }
  }

  /** Sorting a list whose keys are distinct (a dict's items) gives a strictly sorted list. */
  lemma {:induction false} SortByStrict<T>(xs: seq<T>, key: T -> string)
    requires DistinctBy(xs, key)
    ensures StrictlySortedBy(SortBy(xs, key), key)
  {
    if |xs| > 0 {
      var tail := xs[1..];
      var s := SortBy(tail, key);
      assert DistinctBy(tail, key) by {
        forall i, j | 0 <= i < j < |tail|
          ensures key(tail[i]) != key(tail[j])
        {
          assert tail[i] == xs[i + 1] && tail[j] == xs[j + 1];
        }
      }
      SortByStrict(tail, key);
      forall i | 0 <= i < |s|
        ensures key(s[i]) != key(xs[0])
      {
        assert s[i] in multiset(s);
        assert s[i] in multiset(tail);
        var m :| 0 <= m < |tail| && tail[m] == s[i];
        assert key(xs[0]) != key(xs[m + 1]);
      }
      InsertStrict(xs[0], s, key);
      assert SortBy(xs, key) == Insert(xs[0], s, key);
    }
  }

  /** `[x for x in xs if p(x)]` */
  function Filter<T>(xs: seq<T>, p: T -> bool): (r: seq<T>)
    ensures forall i | 0 <= i < |r| :: r[i] in xs && p(r[i])
    ensures forall i | 0 <= i < |xs| && p(xs[i]) :: xs[i] in r
    ensures |r| <= |xs|
  {
    if |xs| == 0 then []
    else
      assert xs == [xs[0]] + xs[1..];
      (if p(xs[0]) then [xs[0]] else []) + Filter(xs[1..], p)
  }

  /**
   * `xs[i]`: Python counts a negative index from the end; an index outside
   * `-len(xs) <= i < len(xs)` raises `IndexError`, which is `None` here.
   */
  function PyIndex<T>(xs: seq<T>, i: int): (r: Option<T>)
    ensures r.Some? <==> -|xs| <= i < |xs|
    ensures 0 <= i < |xs| ==> r == Some(xs[i])
    ensures -|xs| <= i < 0 ==> r == Some(xs[|xs| + i])
  {
    if 0 <= i < |xs| then Some(xs[i])
    else if -|xs| <= i < 0 then Some(xs[|xs| + i])
    else None
  }

  function Min(a: int, b: int): int {
    if a <= b then a else b
  }

  /** `[x for _ in range(n)]` */
  function Replicate<T>(x: T, n: nat): (r: seq<T>)
    ensures |r| == n && forall i | 0 <= i < n :: r[i] == x
  {
    seq(n, _ => x)
  }

  /** Python's `zip`: pairs up to the shorter of the two sequences. */
  function Zip<A, B>(xs: seq<A>, ys: seq<B>): (r: seq<(A, B)>)
    ensures |r| == Min(|xs|, |ys|)
    ensures forall i | 0 <= i < |r| :: r[i] == (xs[i], ys[i])
  {
    if |xs| == 0 || |ys| == 0 then []
    else [(xs[0], ys[0])] + Zip(xs[1..], ys[1..])
  }

  /**
   * A loop that appends `f(x)` for every item in order and stops at the
   * first item for which `f` raises.
   */
  function MapInOrder<T, U, E>(items: seq<T>, f: T -> Result<U, E>): (r: Result<seq<U>, E>)
    ensures r.Success? <==> forall i | 0 <= i < |items| :: f(items[i]).Success?
    ensures r.Success? ==> |r.value| == |items|
    ensures r.Success? ==> forall i | 0 <= i < |items| :: r.value[i] == f(items[i]).value
    ensures r.Failure? ==> exists i | 0 <= i < |items| ::
      && f(items[i]).Failure?
      && r.error == f(items[i]).error
      && forall j | 0 <= j < i :: f(items[j]).Success?
  {
    if |items| == 0 then Success([])
    else match f(items[0])
      case Failure(e) => Failure(e)
      case Success(y) =>
        var rest := items[1..];
        var r := MapInOrder(rest, f);
        assert r.Success? ==> forall i | 0 <= i < |items| :: f(items[i]).Success? by {
          if r.Success? {
            forall i | 1 <= i < |items|
              ensures f(items[i]).Success?
            {
              assert items[i] == rest[i - 1];
            }
          }
        }
        assert r.Failure? ==> exists i | 0 <= i < |items| ::
          && f(items[i]).Failure?
          && r.error == f(items[i]).error
          && forall j | 0 <= j < i :: f(items[j]).Success?
        by {
          if r.Failure? {
            var i :| 0 <= i < |rest| && f(rest[i]).Failure? && r.error == f(rest[i]).error
              && forall j | 0 <= j < i :: f(rest[j]).Success?;
            assert rest[i] == items[i + 1];
            forall j | 0 <= j < i + 1
              ensures f(items[j]).Success?
            {
              if j > 0 {
                assert items[j] == rest[j - 1];
              }
            }
          }
        }
        match r
        case Failure(e) => Failure(e)
        case Success(ys) =>
          assert forall i | 1 <= i < |items| :: ([y] + ys)[i] == ys[i - 1] && items[i] == rest[i - 1];
          Success([y] + ys)
  }
}

=== FILE: pystr.dfy ===
/**
 * The pieces of Python's `str` that the program relies on: the ordering
 * used by `sorted` and `<`, prefix and suffix tests, `split`, `replace`
 * and left-aligned padding in `format`.
 */
module PyStr {
  import opened Wrappers

  /**
   * Python's `a < b` on `str`: lexicographic by code point, a proper
   * prefix before every extension of it.
   */
  predicate Less(a: string, b: string)
    decreases |a|
  {
    |b| > 0 && (|a| == 0 || if a[0] == b[0] then Less(a[1..], b[1..]) else a[0] < b[0])
  }

  predicate LessEq(a: string, b: string) {
    a == b || Less(a, b)
  }

  lemma LessIrreflexive(a: string)
    ensures !Less(a, a)
  {
  }

  lemma LessTransitive(a: string, b: string, c: string)
    requires Less(a, b) && Less(b, c)
    ensures Less(a, c)
  {
    if |a| > 0 && a[0] == b[0] && b[0] == c[0] {
      LessTransitive(a[1..], b[1..], c[1..]);
    }
  }

  lemma LessTotal(a: string, b: string)
    ensures a == b || Less(a, b) || Less(b, a)
  {
    if |a| > 0 && |b| > 0 && a[0] == b[0] {
      LessTotal(a[1..], b[1..]);
      if a[1..] == b[1..] {
        assert a == [a[0]] + a[1..] && b == [b[0]] + b[1..];
      }
    }
  }

  lemma LessAsymmetric(a: string, b: string)
    requires Less(a, b)
    ensures !Less(b, a)
  {
    if |a| > 0 && a[0] == b[0] {
      LessAsymmetric(a[1..], b[1..]);
    }
  }

  lemma LessEqTransitive(a: string, b: string, c: string)
    requires LessEq(a, b) && LessEq(b, c)
    ensures LessEq(a, c)
  {
    if a != b && b != c {
      LessTransitive(a, b, c);
    }
  }

  lemma LessEqAntisymmetric(a: string, b: string)
    requires LessEq(a, b) && LessEq(b, a)
    ensures a == b
  {
    if a != b {
      LessAsymmetric(a, b);
    }
  }

  /** `s.startswith(p)` */
  predicate StartsWith(s: string, p: string) {
    |p| <= |s| && s[..|p|] == p
  }

  /** `s.endswith(p)` */
  predicate EndsWith(s: string, p: string) {
    |p| <= |s| && s[|s| - |p|..] == p
  }

  /**
   * `s.split(c)[-1]`: the text after the last `c`, or all of `s` when
   * `s` contains no `c`.
   */
  function AfterLast(s: string, c: char): string {
    if |s| == 0 || s[|s| - 1] == c then ""
    else AfterLast(s[..|s| - 1], c) + [s[|s| - 1]]
  }

  /**
   * The last piece holds no `c`, ends `s`, and is either all of `s` or
   * preceded by a `c`.
   */
  lemma {:induction false} AfterLastIsLastPiece(s: string, c: char)
    ensures c !in AfterLast(s, c)
    ensures EndsWith(s, AfterLast(s, c))
    ensures var r := AfterLast(s, c); |r| == |s| || s[|s| - |r| - 1] == c
  {
    if |s| > 0 && s[|s| - 1] != c {
      var init := s[..|s| - 1];
      AfterLastIsLastPiece(init, c);
      var rest := AfterLast(init, c);
      assert AfterLast(s, c) == rest + [s[|s| - 1]];
      assert init[|init| - |rest|..] == s[|s| - |rest| - 1..|s| - 1];
      assert s[|s| - |rest| - 1..] == s[|s| - |rest| - 1..|s| - 1] + [s[|s| - 1]];
    }
  }

  lemma EndsWithTransitive(a: string, b: string, c: string)
    requires EndsWith(a, b) && EndsWith(b, c)
    ensures EndsWith(a, c)
  {
    assert a[|a| - |c|..] == a[|a| - |b|..][|b| - |c|..];
  }

  /** A string without `c` is its own last piece. */
  lemma {:induction false} AfterLastWithout(s: string, c: char)
    requires c !in s
    ensures AfterLast(s, c) == s
  {
    if |s| > 0 {
      AfterLastWithout(s[..|s| - 1], c);
      assert s == s[..|s| - 1] + [s[|s| - 1]];
    }
  }

  /** The last piece of `a + c + b` is `b` when `b` has no `c`. */
  lemma {:induction false} AfterLastSplit(a: string, c: char, b: string)
    requires c !in b
    ensures AfterLast(a + [c] + b, c) == b
  {
    var s := a + [c] + b;
    if |b| > 0 {
      var b' := b[..|b| - 1];
      AfterLastSplit(a, c, b');
      assert s[..|s| - 1] == a + [c] + b';
      assert b == b' + [b[|b| - 1]];
    } else {
      assert s[|s| - 1] == c;
    }
  }

  /** Text without `c` appended to `a` extends the last piece of `a`. */
  lemma {:induction false} AfterLastAppend(a: string, c: char, b: string)
    requires c !in b
    ensures AfterLast(a + b, c) == AfterLast(a, c) + b
  {
    if |b| == 0 {
      assert a + b == a;
    } else {
      var b' := b[..|b| - 1];
      var x := b[|b| - 1];
      assert b == b' + [x];
      assert a + b == (a + b') + [x];
      AfterLastAppend(a, c, b');
      AfterLastSnoc(a + b', x, c);
      assert AfterLast(a, c) + b' + [x] == AfterLast(a, c) + b;
    }
  }

  /** A last character other than `c` ends the last piece. */
  lemma AfterLastSnoc(s: string, x: char, c: char)
    requires x != c
    ensures AfterLast(s + [x], c) == AfterLast(s, c) + [x]
  {
    var t := s + [x];
    assert t[..|t| - 1] == s;
  }

  /** The first piece of `a + c + b` is `a` when `a` has no `c`. */
  lemma {:induction false} BeforeFirstSplit(a: string, c: char, b: string)
    requires c !in a
    ensures BeforeFirst(a + [c] + b, c) == a
  {
    if |a| > 0 {
      BeforeFirstSplit(a[1..], c, b);
      assert (a + [c] + b)[1..] == a[1..] + [c] + b;
    }
  }

  /** A string without `c` is its own first piece. */
  lemma {:induction false} BeforeFirstWithout(s: string, c: char)
    requires c !in s
    ensures BeforeFirst(s, c) == s
  {
    if |s| > 0 {
      BeforeFirstWithout(s[1..], c);
    }
  }

  /**
   * `s.split(c)[0]`: the text before the first `c`, or all of `s` when
   * `s` contains no `c`.
   */
  function BeforeFirst(s: string, c: char): (r: string)
    ensures c !in r
    ensures StartsWith(s, r)
    ensures |r| == |s| || s[|r|] == c
  {
    if |s| == 0 || s[0] == c then ""
    else [s[0]] + BeforeFirst(s[1..], c)
  }

  predicate OccursAt(s: string, sep: string, i: int) {
    0 <= i && i + |sep| <= |s| && s[i..i + |sep|] == sep
  }

  /** The first position at or after `from` where `sep` occurs in `s`. */
  function FindFrom(s: string, sep: string, from: nat): (r: Option<nat>)
    decreases |s| - from
    ensures r.Some? ==> r.value + |sep| <= |s|
  {
    if from + |sep| > |s| then None
    else if s[from..from + |sep|] == sep then Some(from)
    else FindFrom(s, sep, from + 1)
  }

  /** `FindFrom` finds the first occurrence at or after `from`, or reports there is none. */
  lemma {:induction false} FindFromIsFirst(s: string, sep: string, from: nat)
    decreases |s| - from
    ensures var r := FindFrom(s, sep, from);
      && (r.Some? ==> from <= r.value && OccursAt(s, sep, r.value))
      && (r.Some? ==> forall j :: from <= j < r.value ==> !OccursAt(s, sep, j))
      && (r.None? ==> forall j :: from <= j ==> !OccursAt(s, sep, j))
  {
    if from + |sep| <= |s| && s[from..from + |sep|] != sep {
      FindFromIsFirst(s, sep, from + 1);
    }
  }

  /**
   * `before, after = s.split(sep, 1)`: the halves around the first
   * occurrence of `sep`. The unpacking raises when `sep` does not occur,
   * which is `None` here.
   */
  function SplitOnce(s: string, sep: string): Option<(string, string)> {
    match FindFrom(s, sep, 0)
    case None => None
    case Some(i) => Some((s[..i], s[i + |sep|..]))
  }

  /** The split is at the first occurrence of `sep`, and there is none exactly when `sep` does not occur. */
  lemma SplitOnceAtFirst(s: string, sep: string)
    ensures var r := SplitOnce(s, sep);
      && (r.None? <==> forall j :: !OccursAt(s, sep, j))
      && (r.Some? ==> s == r.value.0 + sep + r.value.1)
      && (r.Some? ==> forall j :: 0 <= j < |r.value.0| ==> !OccursAt(s, sep, j))
  {
    FindFromIsFirst(s, sep, 0);
    match FindFrom(s, sep, 0)
    case None =>
    case Some(i) =>
      assert s == s[..i] + s[i..i + |sep|] + s[i + |sep|..];
  }

  /** A string that cannot hold the separator's first character splits at the separator put after it. */
  lemma SplitAfterPlainHead(a: string, sep: string, b: string)
    requires |sep| > 0 && sep[0] !in a
    ensures SplitOnce(a + sep + b, sep) == Some((a, b))
  {
    var s := a + sep + b;
    SplitOnceAtFirst(s, sep);
    assert OccursAt(s, sep, |a|) by {
      assert s[|a|..|a| + |sep|] == sep;
    }
    var r := SplitOnce(s, sep).value;
    assert |r.0| <= |a|;
    assert s[|r.0|] == sep[0];
    assert r.0 == s[..|a|] == a;
    assert r.1 == s[|a| + |sep|..] == b;
  }

  /** `s.replace(a, b)` for single characters. */
  function ReplaceChar(s: string, a: char, b: char): (r: string)
    ensures |r| == |s|
    ensures forall i :: 0 <= i < |s| ==> r[i] == if s[i] == a then b else s[i]
  {
    if |s| == 0 then ""
    else [if s[0] == a then b else s[0]] + ReplaceChar(s[1..], a, b)
  }

  /** `c * n` for a one-character string `c`. */
  function Repeat(c: char, n: nat): (r: string)
    ensures |r| == n
    ensures forall i :: 0 <= i < n ==> r[i] == c
  {
    if n == 0 then "" else [c] + Repeat(c, n - 1)
  }

  /** `"{:<width}".format(s)`: pads on the right with spaces, never truncates. */
  function PadRight(s: string, width: nat): (r: string)
    ensures StartsWith(r, s)
    ensures |r| == if |s| < width then width else |s|
    ensures forall i :: |s| <= i < |r| ==> r[i] == ' '
  {
    if |s| < width then s + Repeat(' ', width - |s|) else s
  }
}

=== FILE: training.dfy ===
/**
 * Merging the user's overrides into the default configuration schema at
 * the start of `train` (imgclas/api.py). `decode` stands for `json.loads`;
 * checking the merged configuration and the training run itself are not
 * modelled.
 */
module Training {
  import opened Wrappers
  import opened Errors
  import opened Dicts
  import Json

  /**
   * One schema entry: its `value` and the remaining descriptor fields
   * (`type`, `help`, `choices`, ...), which the merge leaves alone.
   */
  datatype Descriptor = Descriptor(value: Json.Value, others: Dict<Json.Value>)

  type Schema = Nested<Descriptor>

  /** `json.loads(user_conf[key])` succeeds. */
  predicate Resolves(user: map<string, string>, decode: string -> Option<Json.Value>, key: string) {
    key in user && decode(user[key]).Some?
  }

  /** The exception a key that does not resolve raises: `KeyError`, or the decoder's error. */
  function Unresolved(user: map<string, string>, key: string): Error {
    if key !in user then MissingConfKey(key) else UndecodableValue(key)
  }

  /** The first visited entry whose key does not resolve, as the error it raises. */
  function FirstUnresolved(entries: seq<Entry<Descriptor>>, user: map<string, string>,
                           decode: string -> Option<Json.Value>): (r: Option<Error>)
    ensures r.None? <==> forall i | 0 <= i < |entries| :: Resolves(user, decode, entries[i].1)
    ensures r.Some? ==> exists i | 0 <= i < |entries| ::
      && !Resolves(user, decode, entries[i].1)
      && r.value == Unresolved(user, entries[i].1)
      && forall j | 0 <= j < i :: Resolves(user, decode, entries[j].1)
  {
    if |entries| == 0 then None
    else if !Resolves(user, decode, entries[0].1) then Some(Unresolved(user, entries[0].1))
    else
      var r := FirstUnresolved(entries[1..], user, decode);
      assert forall i | 1 <= i < |entries| :: entries[i] == entries[1..][i - 1];
      assert r.Some? ==> exists i | 0 <= i < |entries| ::
        && !Resolves(user, decode, entries[i].1)
        && r.value == Unresolved(user, entries[i].1)
        && forall j | 0 <= j < i :: Resolves(user, decode, entries[j].1)
      by {
        if r.Some? {
          var i :| 0 <= i < |entries| - 1
            && !Resolves(user, decode, entries[1..][i].1)
            && r.value == Unresolved(user, entries[1..][i].1)
            && forall j | 0 <= j < i :: Resolves(user, decode, entries[1..][j].1);
          assert !Resolves(user, decode, entries[i + 1].1);
        }
      }
      r
  }

  /** Every key of the schema resolves. */
  ghost predicate AllResolve(schema: Schema, user: map<string, string>, decode: string -> Option<Json.Value>) {
    forall i, j | 0 <= i < |schema| && 0 <= j < |schema[i].1| :: Resolves(user, decode, schema[i].1[j].0)
  }

  /** Every descriptor's value replaced by the decoded text the user gave for its key. */
  function ReplaceValues(schema: Schema, user: map<string, string>, decode: string -> Option<Json.Value>)
    : (r: Schema)
    requires AllResolve(schema, user, decode)
    ensures |r| == |schema|
    ensures forall i | 0 <= i < |r| :: r[i].0 == schema[i].0 && |r[i].1| == |schema[i].1|
  {
    seq(|schema|, i requires 0 <= i < |schema| =>
      (schema[i].0,
       seq(|schema[i].1|, j requires 0 <= j < |schema[i].1| =>
         var (key, d) := schema[i].1[j];
         (key, d.(value := decode(user[key]).value)))))
  }

  lemma AllResolveThenWalkResolves(schema: Schema, user: map<string, string>, decode: string -> Option<Json.Value>)
    requires AllResolve(schema, user, decode)
    ensures forall k | 0 <= k < |Walk(schema)| :: Resolves(user, decode, Walk(schema)[k].1)
  {
    var w := Walk(schema);
    forall k | 0 <= k < |w|
      ensures Resolves(user, decode, w[k].1)
    {
      WalkVisitsEntries(schema, w[k]);
      var i, j :| 0 <= i < |schema| && 0 <= j < |schema[i].1| && schema[i].0 == w[k].0 && schema[i].1[j] == (w[k].1, w[k].2);
      assert Resolves(user, decode, schema[i].1[j].0);
    }
  }

  lemma WalkResolvesThenAllResolve(schema: Schema, user: map<string, string>, decode: string -> Option<Json.Value>)
    requires forall k | 0 <= k < |Walk(schema)| :: Resolves(user, decode, Walk(schema)[k].1)
    ensures AllResolve(schema, user, decode)
  {
    var w := Walk(schema);
    forall i, j | 0 <= i < |schema| && 0 <= j < |schema[i].1|
      ensures Resolves(user, decode, schema[i].1[j].0)
    {
      var e := (schema[i].0, schema[i].1[j].0, schema[i].1[j].1);
      WalkVisitsEntries(schema, e);
      var k :| 0 <= k < |w| && w[k] == e;
      assert Resolves(user, decode, w[k].1);
    }
  }

  lemma AllResolveIffWalkResolves(schema: Schema, user: map<string, string>, decode: string -> Option<Json.Value>)
    ensures AllResolve(schema, user, decode) <==>
      forall k | 0 <= k < |Walk(schema)| :: Resolves(user, decode, Walk(schema)[k].1)
  {
    if AllResolve(schema, user, decode) {
      AllResolveThenWalkResolves(schema, user, decode);
    }
    if forall k | 0 <= k < |Walk(schema)| :: Resolves(user, decode, Walk(schema)[k].1) {
      WalkResolvesThenAllResolve(schema, user, decode);
    }
  }

  /**
   * The merge loop of `train`. Groups, then keys, are visited in sorted
   * order; the first key missing from `user_conf`, or whose text does not
   * decode, aborts the call. Otherwise every schema value is replaced by
   * the decoded override and nothing else changes.
   */
  function MergeUserConf(schema: Schema, user: map<string, string>, decode: string -> Option<Json.Value>)
    : (r: Result<Schema, Error>)
    ensures r.Success? <==> AllResolve(schema, user, decode)
    ensures r.Success? ==> |r.value| == |schema|
    ensures r.Success? ==> forall i | 0 <= i < |schema| ::
      && r.value[i].0 == schema[i].0
      && |r.value[i].1| == |schema[i].1|
      && forall j | 0 <= j < |schema[i].1| ::
           var key := schema[i].1[j].0;
           && r.value[i].1[j].0 == key
           && r.value[i].1[j].1.value == decode(user[key]).value
           && r.value[i].1[j].1.others == schema[i].1[j].1.others
    ensures r.Failure? ==> exists k | 0 <= k < |Walk(schema)| ::
      && !Resolves(user, decode, Walk(schema)[k].1)
      && r.error == Unresolved(user, Walk(schema)[k].1)
      && forall m | 0 <= m < k :: Resolves(user, decode, Walk(schema)[m].1)
  {
    AllResolveIffWalkResolves(schema, user, decode);
    match FirstUnresolved(Walk(schema), user, decode)
    case Some(e) => Failure(e)
    case None => Success(ReplaceValues(schema, user, decode))
  }

  /** Two override maps that hold the same text for `key`. */
  predicate AgreeOn(u: map<string, string>, user: map<string, string>, key: string) {
    (key in u <==> key in user) && (key in user ==> u[key] == user[key])
  }

  /** A key the extra overrides do not mention reads the same with or without them. */
  lemma ExtraKeyAgrees(user: map<string, string>, extra: map<string, string>, key: string)
    requires key !in extra
    ensures AgreeOn(user + extra, user, key)
  {
  }

  /** The merge depends on the overrides only through the error it reports and the values it decodes. */
  lemma MergeDeterminedBy(schema: Schema, u: map<string, string>, user: map<string, string>,
                          decode: string -> Option<Json.Value>)
    requires FirstUnresolved(Walk(schema), u, decode) == FirstUnresolved(Walk(schema), user, decode)
    requires AllResolve(schema, user, decode) ==>
      AllResolve(schema, u, decode) && ReplaceValues(schema, u, decode) == ReplaceValues(schema, user, decode)
    ensures MergeUserConf(schema, u, decode) == MergeUserConf(schema, user, decode)
  {
    AllResolveIffWalkResolves(schema, u, decode);
    AllResolveIffWalkResolves(schema, user, decode);
  }

  /** Overrides for keys the schema does not have change nothing. */
  lemma ExtraOverridesAreIgnored(schema: Schema, user: map<string, string>, extra: map<string, string>,
                                 decode: string -> Option<Json.Value>)
    requires forall i, j | 0 <= i < |schema| && 0 <= j < |schema[i].1| :: schema[i].1[j].0 !in extra
    ensures MergeUserConf(schema, user + extra, decode) == MergeUserConf(schema, user, decode)
  {
    var u := user + extra;
    var w := Walk(schema);
    forall k | 0 <= k < |w|
      ensures AgreeOn(u, user, w[k].1)
    {
      WalkVisitsEntries(schema, w[k]);
      var i, j :| 0 <= i < |schema| && 0 <= j < |schema[i].1| && schema[i].0 == w[k].0 && schema[i].1[j] == (w[k].1, w[k].2);
      ExtraKeyAgrees(user, extra, w[k].1);
    }
    FirstUnresolvedAgrees(w, u, user, decode);
    if AllResolve(schema, user, decode) {
      forall i, j | 0 <= i < |schema| && 0 <= j < |schema[i].1|
        ensures AgreeOn(u, user, schema[i].1[j].0)
      {
        ExtraKeyAgrees(user, extra, schema[i].1[j].0);
      }
      ReplaceValuesAgree(schema, u, user, decode);
    }
    MergeDeterminedBy(schema, u, user, decode);
  }

  lemma ReplaceValuesAgree(schema: Schema, u: map<string, string>, user: map<string, string>,
                           decode: string -> Option<Json.Value>)
    requires forall i, j | 0 <= i < |schema| && 0 <= j < |schema[i].1| :: AgreeOn(u, user, schema[i].1[j].0)
    requires AllResolve(schema, user, decode)
    ensures AllResolve(schema, u, decode)
    ensures ReplaceValues(schema, u, decode) == ReplaceValues(schema, user, decode)
  {
    var a := ReplaceValues(schema, u, decode);
    var b := ReplaceValues(schema, user, decode);
    forall i | 0 <= i < |schema|
      ensures a[i] == b[i]
    {
      assert a[i].1 == b[i].1;
    }
  }

  lemma {:induction false} FirstUnresolvedAgrees(entries: seq<Entry<Descriptor>>, u: map<string, string>,
                                                  user: map<string, string>, decode: string -> Option<Json.Value>)
    requires forall k | 0 <= k < |entries| :: AgreeOn(u, user, entries[k].1)
    ensures FirstUnresolved(entries, u, decode) == FirstUnresolved(entries, user, decode)
  {
    if |entries| > 0 {
      FirstUnresolvedAgrees(entries[1..], u, user, decode);
    }
  }

  /** A schema key missing from the overrides makes the merge fail. */
  lemma MissingKeyFails(schema: Schema, user: map<string, string>, decode: string -> Option<Json.Value>,
                        i: int, j: int)
    requires 0 <= i < |schema| && 0 <= j < |schema[i].1|
    requires schema[i].1[j].0 !in user
    ensures MergeUserConf(schema, user, decode).Failure?
  {
  }
}

=== FILE: validators.dfy ===
/**
 * The checks run on a prediction request before any model work
 * (imgclas/api.py, `catch_url_error` and `catch_localfile_error`).
 */
module Validators {
  import opened Wrappers
  import opened Errors
  import opened PyStr

  /** The file extensions accepted for uploaded images; the test is case-sensitive. */
  const AllowedExtensions: set<string> := {"png", "jpg", "jpeg", "PNG", "JPG", "JPEG"}

  /** What the HEAD request for a URL gave back. */
  datatype HeadReply =
    | ConnectionFailed                        // `requests.head` raised
    | Headers(contentType: Option<string>)    // the `content-type` header, if any

  /** `url_type.split('/')[0]`: the primary type of a content type. */
  function PrimaryType(contentType: string): (r: string)
    ensures StartsWith(contentType, r) && '/' !in r
    ensures |r| == |contentType| || contentType[|r|] == '/'
  {
    BeforeFirst(contentType, '/')
  }

  /** The verdict on one URL. A missing header makes `None.split` raise. */
  function CheckUrl(reply: HeadReply): (r: Outcome<Error>)
    ensures r.Pass? <==> reply.Headers? && reply.contentType.Some? && PrimaryType(reply.contentType.value) == "image"
    ensures reply.ConnectionFailed? ==> r == Fail(UrlConnection)
    ensures reply.Headers? && reply.contentType.None? ==> r == Fail(MissingContentType)
    ensures reply.Headers? && reply.contentType.Some? && PrimaryType(reply.contentType.value) != "image" ==>
      r == Fail(NotAnImage)
  {
    match reply
    case ConnectionFailed => Fail(UrlConnection)
    case Headers(None) => Fail(MissingContentType)
    case Headers(Some(t)) => if PrimaryType(t) == "image" then Pass else Fail(NotAnImage)
  }

  /**
   * The loop both validators run: the items are checked in order and the
   * first failing one decides the error.
   */
  function CheckInOrder<T>(items: seq<T>, check: T -> Outcome<Error>): (r: Outcome<Error>)
    ensures r.Pass? <==> forall i | 0 <= i < |items| :: check(items[i]).Pass?
    ensures r.Fail? ==> exists i | 0 <= i < |items| ::
      && r == check(items[i])
      && forall j | 0 <= j < i :: check(items[j]).Pass?
  {
    if |items| == 0 then Pass
    else match check(items[0])
      case Fail(e) => Fail(e)
      case Pass =>
        var rest := items[1..];
        var r := CheckInOrder(rest, check);
        assert r.Pass? ==> forall i | 0 <= i < |items| :: check(items[i]).Pass? by {
          if r.Pass? {
            forall i | 1 <= i < |items|
              ensures check(items[i]).Pass?
            {
              assert items[i] == rest[i - 1];
            }
          }
        }
        assert r.Fail? ==> exists i | 0 <= i < |items| ::
          && r == check(items[i])
          && forall j | 0 <= j < i :: check(items[j]).Pass?
        by {
          if r.Fail? {
            var i :| 0 <= i < |rest| && r == check(rest[i])
              && forall j | 0 <= j < i :: check(rest[j]).Pass?;
            assert rest[i] == items[i + 1];
            forall j | 0 <= j < i + 1
              ensures check(items[j]).Pass?
            {
              if j > 0 {
                assert items[j] == rest[j - 1];
              }
            }
          }
        }
        r
  }

  /** The URLs are checked in order and the first failing one decides the error. */
  function CheckUrls(urls: seq<string>, head: string -> HeadReply): (r: Outcome<Error>)
    ensures r.Pass? <==> forall i | 0 <= i < |urls| :: CheckUrl(head(urls[i])).Pass?
    ensures r.Fail? ==> exists i | 0 <= i < |urls| ::
      && r == CheckUrl(head(urls[i]))
      && forall j | 0 <= j < i :: CheckUrl(head(urls[j])).Pass?
  {
    CheckInOrder(urls, (u: string) => CheckUrl(head(u)))
  }

  /**
   * `catch_url_error`: an empty list is rejected; otherwise every URL must
   * answer its HEAD request with a content type whose primary part is `image`.
   */
  function ValidateUrls(urls: seq<string>, head: string -> HeadReply): (r: Outcome<Error>)
    ensures |urls| == 0 ==> r == Fail(EmptyQuery)
    ensures r.Pass? <==>
      && |urls| > 0
      && forall i | 0 <= i < |urls| ::
           && head(urls[i]).Headers?
           && head(urls[i]).contentType.Some?
           && PrimaryType(head(urls[i]).contentType.value) == "image"
    ensures r.Fail? && |urls| > 0 ==> r.error in {UrlConnection, MissingContentType, NotAnImage}
    ensures r.Fail? && |urls| > 0 ==> exists i | 0 <= i < |urls| ::
      && r == CheckUrl(head(urls[i]))
      && forall j | 0 <= j < i :: CheckUrl(head(urls[j])).Pass?
  {
    if |urls| == 0 then Fail(EmptyQuery)
    else
      CheckUrls(urls, head)
  }

  /**
   * The last `.`-piece of the last `/`-piece holds no `.` and no `/`, ends
   * the path, and is either the whole base name or preceded by a `.`
   * inside it.
   */
  lemma LastPieceOfBaseName(path: string)
    ensures var base := AfterLast(path, '/');
      var r := AfterLast(base, '.');
      && '.' !in r && '/' !in r
      && EndsWith(path, r)
      && (|r| == |base| || (|r| < |base| && base[|base| - |r| - 1] == '.'))
  {
    var base := AfterLast(path, '/');
    AfterLastIsLastPiece(path, '/');
    AfterLastIsLastPiece(base, '.');
    EndsWithTransitive(path, base, AfterLast(base, '.'));
  }

  /**
   * `os.path.basename(name).split('.')[-1]`: the text after the last `.` of
   * the base name, or the whole base name when it has no `.`.
   */
  function Extension(filename: string): (r: string)
    ensures '.' !in r && '/' !in r
    ensures EndsWith(filename, r)
    ensures var base := AfterLast(filename, '/');
      |r| == |base| || (|r| < |base| && base[|base| - |r| - 1] == '.')
  {
    LastPieceOfBaseName(filename);
    AfterLast(AfterLast(filename, '/'), '.')
  }

  /** A file the allow-list accepts. */
  predicate Accepted(filename: string) {
    Extension(filename) in AllowedExtensions
  }

  /** The verdict on one file. */
  function CheckFile(filename: string): (r: Outcome<Error>)
    ensures r.Pass? <==> Accepted(filename)
    ensures r.Fail? ==> r.error == UnsupportedExtension
  {
    if Accepted(filename) then Pass else Fail(UnsupportedExtension)
  }

  /** The files are checked in order; any extension outside the allow-list rejects the batch. */
  function CheckFiles(filenames: seq<string>): (r: Outcome<Error>)
    ensures r.Pass? <==> forall i | 0 <= i < |filenames| :: Accepted(filenames[i])
    ensures r.Fail? ==> r.error == UnsupportedExtension
  {
    CheckInOrder(filenames, CheckFile)
  }

  /** `catch_localfile_error`: an empty list is rejected, then every extension must be allowed. */
  function ValidateFiles(filenames: seq<string>): (r: Outcome<Error>)
    ensures |filenames| == 0 ==> r == Fail(EmptyQuery)
    ensures r.Pass? <==>
      |filenames| > 0 && forall i | 0 <= i < |filenames| :: Accepted(filenames[i])
    ensures r.Fail? && |filenames| > 0 ==> r.error == UnsupportedExtension
  {
    if |filenames| == 0 then Fail(EmptyQuery) else CheckFiles(filenames)
  }

  /** The extension of `stem.ext` is `ext`, whatever dots and slashes the stem holds. */
  lemma ExtensionAfterLastDot(stem: string, ext: string)
    requires '.' !in ext && '/' !in ext
    ensures Extension(stem + "." + ext) == ext
  {
    var dir := AfterLast(stem, '/');
    assert stem + "." + ext == stem + (['.'] + ext);
    AfterLastAppend(stem, '/', ['.'] + ext);
    assert dir + (['.'] + ext) == dir + ['.'] + ext;
    AfterLastSplit(dir, '.', ext);
  }

  /** A single `stem.ext` passes exactly when `ext` is on the allow-list. */
  lemma ValidateDottedName(stem: string, ext: string)
    requires '.' !in ext && '/' !in ext
    ensures ValidateFiles([stem + "." + ext]) == if ext in AllowedExtensions then Pass else Fail(UnsupportedExtension)
  {
    var name := stem + "." + ext;
    ExtensionAfterLastDot(stem, ext);
    assert [name][0] == name;
  }

  /** The allow-list is case-sensitive: `x.Jpg` is rejected, whatever `x` is. */
  lemma ExtensionIsCaseSensitive(stem: string)
    ensures ValidateFiles([stem + "." + "Jpg"]) == Fail(UnsupportedExtension)
  {
    assert "Jpg" !in AllowedExtensions;
    ValidateDottedName(stem, "Jpg");
  }

  /** The text after the LAST dot is the extension: `a.b.jpeg` is accepted. */
  lemma LastDotDecides(stem: string)
    ensures ValidateFiles([stem + ".b" + "." + "jpeg"]) == Pass
  {
    ValidateDottedName(stem + ".b", "jpeg");
  }

  /**
   * A base name without a dot is judged whole: `photo` is rejected while
   * a file named just `png` is accepted.
   */
  lemma DotlessNameIsItsOwnExtension(name: string)
    requires '.' !in name && '/' !in name
    ensures ValidateFiles([name]).Pass? <==> name in AllowedExtensions
  {
    AfterLastWithout(name, '/');
    AfterLastWithout(name, '.');
  }

  /** Only the base name counts: a dot in a directory name (`album.png/photo`) is not an extension. */
  lemma OnlyBaseNameCounts(dir: string, name: string)
    requires '.' !in name && '/' !in name
    ensures ValidateFiles([dir + "/" + name]).Pass? <==> name in AllowedExtensions
  {
    assert dir + "/" + name == dir + ['/'] + name;
    AfterLastSplit(dir, '/', name);
    AfterLastWithout(name, '.');
  }

  /** One bad URL anywhere rejects the whole batch. */
  lemma OneBadUrlRejectsBatch(urls: seq<string>, head: string -> HeadReply, k: int)
    requires 0 <= k < |urls|
    requires head(urls[k]).Headers? && head(urls[k]).contentType.Some?
    requires PrimaryType(head(urls[k]).contentType.value) != "image"
    ensures ValidateUrls(urls, head).Fail?
  {
  }

  /** Every `image/...` content type passes, whatever the subtype. */
  lemma ImageSubtypesPass(subtype: string)
    ensures CheckUrl(Headers(Some("image/" + subtype))) == Pass
  {
    assert "image/" + subtype == "image" + ['/'] + subtype;
    BeforeFirstSplit("image", '/', subtype);
  }

  /** A bare `image` content type passes too: no `/` is needed. */
  lemma BareImagePasses()
    ensures CheckUrl(Headers(Some("image"))) == Pass
  {
    BeforeFirstWithout("image", '/');
  }

  /** Any other primary type fails, including near misses such as `imagex/png`. */
  lemma OtherPrimaryTypesFail(primary: string, subtype: string)
    requires '/' !in primary && primary != "image"
    ensures CheckUrl(Headers(Some(primary + "/" + subtype))) == Fail(NotAnImage)
  {
    assert primary + "/" + subtype == primary + ['/'] + subtype;
    BeforeFirstSplit(primary, '/', subtype);
  }
}

=== FILE: wrappers.dfy ===
/** Failure-carrying return types: the model's stand-in for Python exceptions. */
module Wrappers {

  datatype Option<+T> = None | Some(value: T)

  /** A computation that either produced a value or raised an error. */
  datatype Result<+T, +E> = Success(value: T) | Failure(error: E)

  /** A check that either passed or raised an error (a function returning None in Python). */
  datatype Outcome<+E> = Pass | Fail(error: E)
}
